=== FILE: README.md ===
# ClickCounter state core in Dafny

This project models the state core of `app.js` in the ClickCounter page. That page is a click counter with a settings panel, a history log and a custom theme, and everything lives in `sessionStorage`. Everything around the core is DOM and event wiring.

The model is functional. One immutable `Counter.State` holds:

- the count;
- the start time;
- the last-saved time;
- the newest-first history log;
- the session storage, as a map from the four keys to typed records;
- the theme part of the page: the custom properties on the root element and the editor fields.

Each handler is a pure function `State -> State`. Time is an opaque `now` parameter, and a confirmation dialog is a boolean parameter.

Modules, in dependency order:

- `Wrappers` holds `Option`, standing for `null`, a missing key and a skipped falsy field.
- `Text` holds `String(n)`, `n.toString(16)`, `padStart(2, '0')`, `parseInt` on digits and the regular-expression class `\s`.
- `Colour` holds `hexToRgba` and `rgbToHex`. The latter includes the leftmost match of `/rgba?\((\d+),(\d+),(\d+)/i`.
- `Records` holds timestamps, history entries, themes, editor fields and stored records.
- `SessionStorage` holds the four keys and `getItem`/`setItem`/`removeItem`. A storage that refuses writes is modelled as `full`.
- `History` holds the bounded newest-first insert of `recordHistory`, the label text of `renderHistory`, and a parser that reads a label back.
- `Counter` holds `loadState`, `saveState`, `loadHistory`, `saveHistory`, `recordHistory`, `changeBy`, and the add, subtract, set, reset and clear-history handlers.
- `ThemeStore` holds `applyTheme`, `loadTheme`, `resetThemeToDefault` and the preview, save and reset-theme buttons.
- `Controller` holds `init`, an `Action` for each listener, `Step`, `Run`, the storage invariant over whole runs, and some concrete scenarios.

The central invariant is `Counter.Persisted`. It says that storage is in step with the state:

- The start key holds the start time.
- Unless storage refuses writes, reading the counter key gives back the count and the last-saved time, and reading the history key gives back the log. The model treats a refused write as all-or-nothing for the whole session: either every write succeeds or every write is refused.

Two results build on it:

- Every handler preserves the invariant, and so does every run of events.
- Suppose boot found a readable counter record and storage accepts writes. Then a reload after any run gives back the count, the start time, the last-saved time and the log the run ended with. A previewed style is not stored, so it is not restored. A saved theme is: `ThemeStore.SavedThemeReloads` shows that loading it in the reloading page restores the saved custom properties and, through `loadTheme`'s copies (`app.js:221-224`), the editor fields.

The code, not an idealised reading of the program, decides these three behaviours:

- Manual add and subtract log two entries. `changeBy` logs a `Change` entry, and then the handler logs an `Add` or `Sub` entry (`app.js:333-342`).
- A confirmed reset removes the counter record, but the `saveState` that follows writes it again with count 0. A reload therefore finds count 0 and not an empty key (`app.js:300-307`).
- `loadState` does not clamp a negative stored count (`app.js:60`). "Count ≥ 0" is preserved by the handlers (`Counter.Valid`), not established by loading.

## Model

| member | source | states |
|---|---|---|
| Text.NatToDec | app.js:164-168 | `String(n)` of a natural is non-empty decimal digits with no leading zero |
| Text.DecToNatOfNatToDec | app.js:275-277 | `parseInt` reads the decimal text of any natural back as that natural |
| Text.IntToDec | app.js:164-168 | `String(i)` starts with `-` exactly when `i` is negative, is decimal digits after that, and reads back as `i` |
| Text.ParsePlusSigned | app.js:167 | the `+`-signed text the label writes for a positive delta reads back as that delta |
| Text.NatToHex | app.js:275-277 | `n.toString(16)` is non-empty lower-case hex digits with no leading zero, whose value is `n` |
| Text.PadStart2 | app.js:275-277 | `padStart(2, '0')` keeps text of length two or more, and left-pads shorter text with `0` to length 2 |
| Text.Hex2OfDigits | app.js:275-277 | two hex digits read as a byte and written back as padded hex come back as the same digits lower-cased |
| Text.StripSpaces | app.js:271 | removing `\s` leaves no white space and leaves white-space-free text unchanged; a single character is dropped exactly when it is white space (with `StripSpacesAppend` this fixes the result for every text) |
| Text.StripSpacesAppend | app.js:271 | removing white space distributes over concatenation |
| Text.IndexOf | app.js:244 | the position found holds the character and no earlier position does; no position is found only when the character does not occur |
| Colour.RemoveFirstHash | app.js:244 | `replace('#','')` deletes the first `#` and keeps everything around it, and leaves text without `#` unchanged |
| Colour.ByteAt | app.js:245-247 | each two-digit `parseInt(…, 16)` channel is below 256 |
| Colour.HexToRgba | app.js:243-249 | the result is `rgba(` … `)` text that ends with the alpha text just before the closing parenthesis |
| Colour.LeadingDigits | app.js:273 | the greedy `\d+` run: all digits, and followed by a non-digit or the end of the text |
| Colour.OpeningLength | app.js:273 | `rgba?\(` matches 4 characters exactly when the text starts with `rgb(` in any letter case, and 5 exactly when it starts with `rgba(`; otherwise it does not match |
| Colour.FirstMatch | app.js:273 | the position found is a match and no earlier position from the start point matches; no position is found only when none matches |
| Colour.FindRgb | app.js:273 | `match` finds no captures exactly when no position starts a match; otherwise the captures are those of a match with no match before it |
| Colour.FormatHex | app.js:275-278 | `#` followed by at least six hex digits |
| Colour.RgbToHex | app.js:269-279 | empty input gives `null`; after stripping white space, a `#` colour is returned as it is; otherwise `null` exactly when the pattern matches nowhere; every result starts with `#` |
| Colour.MatchHereRgba | app.js:273 | `rgba(` and three comma-separated digit runs followed by a non-digit match, with the runs' values as the captures |
| Colour.MatchAfterRgb | app.js:273 | after the 4-character opening `rgb(` the captures are those of the rest of the text |
| Colour.FormatHexOfBytes | app.js:275-278 | three bytes read from six hex digits are written back as `#` and those digits lower-cased |
| Colour.StrippedRgbaMatches | app.js:243-273 | the white-space-stripped `hexToRgba` text of any three channels matches at its first character, with those channels captured |
| Colour.RgbToHexOfHexToRgba | app.js:243-279 | for every six-hex-digit colour and every alpha, `rgbToHex(hexToRgba(hex, alpha))` is `#` and the six digits lower-cased |
| Colour.RgbToHexStripped | app.js:269-271 | `rgbToHex` gives the same result on a colour and on that colour with its white space removed |
| Colour.RgbToHexOfRgbText | app.js:269-279 | on any text that, once white space is removed, is `rgb(` or `rgba(` in any letter case and three decimal channels (so also `RGB(1,2,3)` and the spaced computed-style form `rgb(121, 191, 233)`), `rgbToHex` gives `#` and each channel's value in padded lower-case hex |
| SessionStorage.SetItem | app.js:79-88 | a write stores the value unless storage refuses it, which leaves storage as it was; no other key changes |
| SessionStorage.RemoveItem | app.js:305 | `removeItem` always succeeds, deletes the key and changes no other key |
| SessionStorage.GetAfterSet | app.js:79-88 | reading any key after a write gives the written value at that key on a writable storage, and the earlier value everywhere else |
| SessionStorage.GetAfterRemove | app.js:305 | a removed key reads as missing, and every other key reads as before |
| History.Push | app.js:136-137 | the new entry is first, the length is `min(500, old length + 1)`, and the tail is the old log cut to fit |
| History.PushBelowCap | app.js:136-137 | below the cap nothing is dropped |
| History.PushAtCap | app.js:137 | at the cap exactly the oldest entry is dropped |
| History.PushAllNewestFirst | app.js:129-137 | after any non-empty series of records, the log is the records in reverse order before the old log, cut to the cap |
| History.PushAllBounded | app.js:137 | after any non-empty series of records, the log is non-empty and within the cap, and its first entry is the latest record |
| History.Label | app.js:163-169 | `Set → n` for set entries, `Reset → n` for reset entries, otherwise the delta with a `+` when positive, then ` → ` and the new count |
| History.ParseFormat | app.js:163-169 | every label text reads back as the content it shows, so distinct contents never share a label |
| History.LabelReadsBack | app.js:163-169 | the label text alone gives back what it shows of the entry: set or reset with the new count, or else the delta and the new count |
| History.Render | app.js:144-187 | an empty log shows the placeholder; otherwise the first `min(200, length)` entries, in order, each with its own time, upper-cased type and exactly the label text of that entry, which reads back to the entry |
| Counter.Max0 | app.js:389-390 | the clamped value is non-negative and is either the value itself or 0 |
| Counter.KeysDistinct | app.js:3-6 | the four storage keys are pairwise different |
| Counter.SaveState | app.js:79-88 | on a writable storage, the counter key holds the count and the save time, and `lastSaved` is that time; a refused write changes nothing; no other key changes |
| Counter.ReadCounter | app.js:57-65 | a missing key is count 0 and no last-saved time; a counter record gives its count (negative or not) and time; a theme or history object at the key, which has no usable `count`, is count 0 and no last-saved time; reading fails exactly for text `JSON.parse` rejects |
| Counter.LoadState | app.js:55-77 | boot aborts exactly when storage refuses writes and the `catch` path has to write a start time. Otherwise the start key holds the start time, a readable counter is taken as stored, and nothing but the start key is written. A stored start time with a readable counter is kept and nothing is written; without a stored start time the start time is `now` |
| Counter.LoadHistory | app.js:110-119 | a stored log is returned as it is, and a missing key or text that does not parse gives the empty log |
| Counter.SaveHistory | app.js:121-127 | on a writable storage, reading the history key gives back the log; a refused write changes nothing |
| Counter.RecordHistory | app.js:129-142 | the result is the old log with a new entry (current count, time) in front, capped at 500; the old entries stay in order, the stored log matches, and the count and times are untouched |
| Counter.ChangeBy | app.js:388-395 | the count becomes `max(0, count + delta)`; a `Change` entry logs the requested delta (not the applied one) and the new count; the count, save time and log are stored; no other key changes |
| Counter.ManualAdd | app.js:333-337 | the count becomes `max(0, count + v)`, with non-numeric input read as 0. The log is the old log with a `Change` entry and then an `Add` entry pushed, both with delta `v` and the new count. The count, save time and log are stored, and no other key changes |
| Counter.ManualSub | app.js:338-342 | the count becomes `max(0, count - v)`. The log is the old log with a `Change` entry and then a `Sub` entry pushed, both with delta `-v` and the new count. The count, save time and log are stored, and no other key changes |
| Counter.SetExact | app.js:343-350 | the count becomes `max(0, v)`, with non-numeric input read as 0, and is stored. A `Set` entry carries that value as both delta and new count, and the history key holds the new log. No key but the counter and history keys changes |
| Counter.ResetCounter | app.js:300-310 | declined, nothing changes. Confirmed: the count is 0, and a `Reset` entry with delta 0 and count 0 leads the log. The counter key holds count 0 again and the history key the new log, unless storage refuses writes, in which case the counter key is gone and the history key is as it was. No key but the counter and history keys changes |
| Counter.ClearHistory | app.js:189-197 | declined, nothing changes; otherwise the log is empty and the stored log is empty too, unless storage refuses writes, in which case storage is unchanged; the counter and every other key are untouched |
| Counter.ReloadRestores | app.js:55-119 | on a persisted, writable state, `loadState` and `loadHistory` give back the count, last-saved time, start time and log, and write nothing |
| Counter.SaveStatePersists | app.js:79-88 | `saveState` keeps storage in step with the state |
| Counter.ChangeByPersists | app.js:388-395 | `changeBy` keeps storage in step with the state |
| Counter.ManualAddPersists | app.js:333-337 | the add button keeps storage in step with the state |
| Counter.ManualSubPersists | app.js:338-342 | the subtract button keeps storage in step with the state |
| Counter.RecordKeepsCounter | app.js:129-138 | logging an entry keeps storage in step with the state |
| Counter.SetExactPersists | app.js:343-350 | the set button keeps storage in step with the state |
| Counter.ResetPersists | app.js:300-310 | reset, confirmed or not, keeps storage in step with the state |
| Counter.ClearHistoryPersists | app.js:189-197 | clearing the log keeps storage in step with the state |
| Counter.ResetThenLoad | app.js:300-307 | after a confirmed reset on a writable storage, a reload finds count 0 and the reset time as last-saved time, not an empty counter key |
| Counter.LoadKeepsNegative | app.js:60 | a stored count of -5 is loaded as -5, not clamped |
| ThemeStore.White | app.js:205-206 | `hexToRgba('#ffffff', a)` is `rgba(255,255,255,a)` |
| ThemeStore.WhiteRgba | app.js:243-249 | white has six hex digits and is written with channel values 255 |
| ThemeStore.SetIf | app.js:203-207 | a guarded `setProperty` sets its property when the guard holds and no other property in any case |
| ThemeStore.SetIfOutside | app.js:203-207 | setting a theme property leaves every non-theme property alone |
| ThemeStore.ApplyVars | app.js:200-207 | each of the five properties is set exactly when its theme field is truthy (the glass fields as white with that opacity), and no other property changes |
| ThemeStore.Serialised | app.js:210 | the stored theme keeps the strings, and non-finite opacities come back as `null` |
| ThemeStore.SerialisedStable | app.js:210-219 | storing a stored theme again changes nothing |
| ThemeStore.ApplySerialised | app.js:203-210 | a theme with finite opacities applies exactly as its stored form does |
| ThemeStore.ApplyTheme | app.js:200-213 | the properties are set as above; the theme is stored only when persisting on a writable storage; the counter, the log and the other keys are untouched |
| ThemeStore.LoadTheme | app.js:215-226 | a stored theme is applied and copied into the editor without being stored again; a missing key, text that does not parse or a stored value that is not a theme changes nothing |
| ThemeStore.ResetThemeToDefault | app.js:228-241 | the theme key is removed, the five properties hold the default colours and white at 0.45 and 0.06, the editor shows the defaults, and nothing else changes |
| ThemeStore.PreviewTheme | app.js:352-360 | preview applies the panel's theme and stores nothing |
| ThemeStore.SaveTheme | app.js:362-373 | save gives the same page as preview, and on a writable storage the theme key holds the panel's theme |
| ThemeStore.ResetTheme | app.js:375-380 | declined, nothing changes. Confirmed: the stored theme is gone, and the five properties and the editor hold the defaults. In both cases the counter and every other key are untouched |
| ThemeStore.ApplyIdempotent | app.js:200-213 | applying a theme twice is the same as applying it once |
| ThemeStore.SavedThemeReloads | app.js:208-226 | a saved theme with finite opacities, loaded into any page whose storage the save left: when every panel value is set, the editor gets back exactly the saved values and each theme property the saved value, while every other property stays the reloading page's own; a page still in the saving page's style ends up exactly as the save left it |
| ThemeStore.LoadAfterReset | app.js:215-241 | after a theme reset, loading the theme changes nothing |
| ThemeStore.ResetIdempotent | app.js:228-241 | resetting the theme twice is the same as resetting it once |
| ThemeStore.LoadIdempotent | app.js:215-226 | loading the theme twice is the same as loading it once |
| ThemeStore.ApplyKeepsCounter | app.js:200-213 | applying or saving a theme keeps the counter's storage in step with the state |
| ThemeStore.LoadKeepsCounter | app.js:215-226 | loading the theme keeps the counter's storage in step with the state |
| ThemeStore.ResetKeepsCounter | app.js:228-241 | resetting the theme keeps the counter's storage in step with the state |
| ThemeStore.OnlyThemeKey | app.js:199-241 | a change confined to the style and the theme key keeps the counter's storage in step |
| Controller.Abs | app.js:296-297 | `Math.abs` is non-negative and is the value or its negation |
| Controller.Control | app.js:291-298 | `inc` sets the count to `max(0, count + abs(value))`; `dec` sets it to `max(0, count - abs(value))`. Either logs a `Change` entry with the signed amount in front. A click on anything else does nothing, and no key but the counter and history keys changes |
| Controller.CounterStep | app.js:282-350 | the counter listeners never touch the theme, the stored theme, the start time or whether storage accepts writes. They keep the count non-negative and the log within 500 |
| Controller.ThemeStep | app.js:352-380 | the theme listeners never touch the count, the times, the log or any stored key but the theme key |
| Controller.Init | app.js:398-405 | boot stops exactly when `loadState` throws, which needs a storage that refuses writes. Otherwise the log is the stored one, the start key holds the start time and a readable stored counter is restored. An unreadable counter record gives count 0, no last-saved time and start time `now`, as the `catch` block of `loadState` does. A stored theme is applied to the page and copied into the editor; with none the page keeps its style |
| Controller.StepPreservesValid | app.js:282-395 | every handler keeps the count non-negative and the log within the cap |
| Controller.StepKeepsSession | app.js:282-395 | no handler changes the start time or whether storage accepts writes |
| Controller.StepPersists | app.js:282-395 | every handler keeps storage in step with the state |
| Controller.RunPreservesValid | app.js:282-395 | every run of events keeps the count non-negative and the log within the cap |
| Controller.RunPersists | app.js:282-395 | every run of events keeps storage in step with the state |
| Controller.RunKeepsFull | app.js:282-395 | no run changes the start time or whether storage accepts writes |
| Controller.InitPersisted | app.js:398-400 | right after boot storage is in step with the state, whenever the stored counter could be read |
| Controller.BootAbortsWithoutStart | app.js:72-76 | on a storage that refuses writes and has no start time, boot stops |
| Controller.ReloadAfterRun | app.js:398-400 | after boot and any run on a writable storage, a reload gives back the count, both times and the log the run ended with |
| Controller.FreshBoot | app.js:55-77 | a fresh session boots with count 0, no last-saved time, an empty log and the boot time as start time |
| Controller.OneClick | app.js:283 | a meter click below the cap adds 1 and puts a `Change` entry with delta 1 and the new count in front of the whole old log |
| Controller.ClicksAddUp | app.js:283 | `n` meter clicks add `n` to a non-negative count and log one entry each, newest first, with the running count |
| Controller.ThreeClicks | app.js:283 | three clicks from 0 give count 3 and the entries for 3, 2 and 1 in that order |
| Controller.SetNegative | app.js:343-349 | setting -5 gives count 0 and a `Set` entry with delta 0 and count 0, labelled `Set → 0` |
| Controller.ClampAtZero | app.js:388-395 | "dec 10" at count 3 gives count 0 and logs the requested delta -10 with new count 0 |

## Left out

- DOM rendering is not modelled because it is UI only and holds no state logic. This covers `render`, `renderMeta`, `pulse`, opening and closing the modal, `alert`, `console` and the wiring in `initListeners` (`app.js:90-107`, `app.js:252-267`, `app.js:318-325`). The handler bodies are modelled as `Controller.Action`s.
- The computed-style read in `openModal` (`app.js:256-261`) is browser plumbing. `rgbToHex` itself is modelled.
- `decManual` and `incManual` (`app.js:327-332`) only edit the manual-number input. That input is a parameter of the add, subtract and set actions.
- `renderHistory` runs only while the modal is open (`app.js:139-141`). The model keeps the list as a pure projection, `History.Render`, and does not track whether the modal is open.
- `setInterval`, `visibilitychange` and `beforeunload` (`app.js:312-316`) all just call `saveState`. They are one action, `Persist`, with no clock.
- `Date`, `toISOString` and `toLocaleString` are left out: a timestamp is an opaque non-empty `Time`, and the shown local time is not modelled.
- JSON text is not modelled, and storage holds typed records.
  - Text `JSON.parse` rejects is `Unparseable`.
  - A record of the wrong shape is read the way the code treats it: a theme or history object at the counter key gives count 0.
  - A non-history record at the history key gives the empty log. The code would take such an object as the log itself.
  - Counter.LoadState: a start key holding something other than a start time is treated as missing. The code would show its text.
- Floating point is not modelled. The opacities and the alpha of `hexToRgba` are opaque text (`Alpha`). This leaves out:
  - `Number(alpha)`;
  - `max(0.01, g - 0.35)` for the second opacity (`app.js:357`, `app.js:367`), which is a parameter of the preview and save actions;
  - the glass slider's number formatting.
- ThemeStore.AlphaTruthy treats only the texts `0` and `NaN` as falsy numbers. It assumes the opacity text is the normalised text JavaScript prints for a number.
- ThemeStore.SavedThemeReloads requires finite opacities. An infinite opacity would be stored as `null`, and the reloaded page would then keep the earlier property. Its full restore of a reloading page is stated only when every panel value is set (`ThemeStore.AllSet`). An empty colour or a zero opacity is skipped by the guards of `applyTheme` and `loadTheme`, so for that value the reloading page keeps its own.
- Counter.ManualAdd: counts and deltas are mathematical integers. The `|| 0` coercion of `NaN` is modelled (`None`), but fractional input, precision loss above 2^53 and `parseInt` rounding are not.
- Colour.HexToRgba requires six hex digits after the first `#` is removed. On malformed input `parseInt` yields `NaN`, and that floating-point text is not modelled.
- Controller.InitPersisted requires a readable counter record. When that record is unreadable, the `catch` block of `loadState` resets the count but leaves the bad record in place, so storage is not in step until the next save.
- ThemeStore.LoadFields copies an opacity of 0 into the editor, as `typeof theme.glass === 'number'` does, even though `applyTheme` skips it as falsy. The model keeps this difference.
- Controller.Control: a button's `data-value` is an integer. A non-numeric value makes `Math.abs` give `NaN`, and the count then becomes `NaN`. Floating point is not modelled, so that path is left out.
- SessionStorage.SetItem: a refused write is all-or-nothing for the session (`Store.full` never changes). In the browser each `setItem` can fail on its own, because the quota depends on size. For example, `changeBy`'s `saveState` could succeed while its `saveHistory` fails, and a reload would then show the new count with a log that lacks its entry. `Counter.Persisted`, `Controller.RunPersists` and `Controller.ReloadAfterRun` rely on this simplification.
- Text.NatToDec and Text.IntToDec write every integer as plain decimal digits. JavaScript writes numbers of magnitude 1e21 or more in exponent form (`1e+21`), and integers above 2^53 lose precision. History.Label inherits the same limit.
- One `now` stands for every `nowISO()` call of a handler. `changeBy` reads the clock in `saveState` (`app.js:81`) and again in `recordHistory` (`app.js:131`), so in the browser the last-saved time and the log entry's time can differ by a few milliseconds. The model gives both the same time.
- Colour.FormatHex reads channel digits as unbounded naturals. In JavaScript a run of more than about 308 digits parses to `Infinity`, and `rgbToHex` would then write `#Infinity…`. That case is not modelled.

=== FILE: colour.dfy ===
/** The two colour-string helpers of app.js: `hexToRgba`, which writes a
    `#rrggbb` colour with an opacity as CSS `rgba(...)` text, and
    `rgbToHex`, which reads a computed `rgb(...)`/`rgba(...)` colour back as
    `#rrggbb` (or passes a `#` colour through). */
module Colour {
  import opened Wrappers
  import opened Text

  // ------------------------------------------------------------- hexToRgba

  /** `hex.replace('#', '')`: a string pattern replaces only its first
      occurrence. */
  function RemoveFirstHash(s: string): (r: string)
    ensures IndexOf(s, '#').None? ==> r == s
    ensures IndexOf(s, '#').Some? ==>
              var i := IndexOf(s, '#').value;
              r == s[..i] + s[i + 1..]
    decreases |s|
  {
    if |s| == 0 then s
    else if s[0] == '#' then s[1..]
    else
      assert IndexOf(s[1..], '#').Some? ==>
               var q := IndexOf(s[1..], '#').value;
               s[..q + 1] == [s[0]] + s[1..][..q] && s[q + 2..] == s[1..][q + 1..];
      [s[0]] + RemoveFirstHash(s[1..])
  }

  /** The three `substring`s `hexToRgba` parses are all hex digits. */
  predicate HasSixHexDigits(h: string) {
    |h| >= 6 && forall i :: 0 <= i < 6 ==> IsHexDigit(h[i])
  }

  /** `parseInt(h.substring(i, i + 2), 16)`. */
  function ByteAt(h: string, i: nat): (b: nat)
    requires HasSixHexDigits(h) && i <= 4
    ensures b < 256
  {
    16 * HexValue(h[i]) + HexValue(h[i + 1])
  }

  /** `hexToRgba(hex, alpha)`; `alpha` is the text JavaScript prints for
      `Number(alpha)`, which the model keeps opaque. */
  function HexToRgba(hex: string, alpha: string): (r: string)
    requires HasSixHexDigits(RemoveFirstHash(hex))
    ensures |r| > |alpha| + 6 && r[..5] == "rgba(" && r[|r| - 1] == ')'
    ensures r[|r| - |alpha| - 1..|r| - 1] == alpha
  {
    var h := RemoveFirstHash(hex);
    RgbaText(NatToDec(ByteAt(h, 0)), NatToDec(ByteAt(h, 2)), NatToDec(ByteAt(h, 4)), alpha)
  }

  /** The template `rgba(${r},${g},${b},${alpha})`. */
  function RgbaText(r: string, g: string, b: string, alpha: string): string {
    "rgba(" + r + "," + g + "," + b + "," + alpha + ")"
  }

  // ------------------------------------------------------------- rgbToHex

  /** The three captures of `/rgba?\((\d+),(\d+),(\d+)/i`, read by
      `parseInt`. */
  datatype Rgb = Rgb(r: nat, g: nat, b: nat)

  /** The length of the run of digits `s` starts with. */
  function LeadingDigits(s: string): (n: nat)
    ensures n <= |s| && AllDigits(s[..n])
    ensures n == |s| || !IsDigit(s[n])
    decreases |s|
  {
    if |s| > 0 && IsDigit(s[0]) then
      var n := 1 + LeadingDigits(s[1..]);
      assert s[..n] == [s[0]] + s[1..][..n - 1];
      n
    else 0
  }

  /** The length of the text `rgba?\(` matches at the front of `s`
      (letters in either case), or 0 when it does not match. After `rgb` an
      `a` is tried first; if it is there but not followed by `(`,
      backtracking leaves `(` to match the `a` itself, which fails. */
  function OpeningLength(s: string): (n: nat)
    ensures n == 0 || n == 4 || n == 5
    ensures n > 0 ==> n <= |s| && s[n - 1] == '('
    ensures n == 4 <==> |s| >= 4 && LowerAll(s[..4]) == "rgb("
    ensures n == 5 <==> |s| >= 5 && LowerAll(s[..5]) == "rgba("
  {
    if !(|s| > 3 && ToLower(s[0]) == 'r' && ToLower(s[1]) == 'g' && ToLower(s[2]) == 'b') then 0
    else if ToLower(s[3]) == 'a' then (if |s| > 4 && s[4] == '(' then 5 else 0)
    else if s[3] == '(' then 4
    else 0
  }

  /** The match of `/rgba?\((\d+),(\d+),(\d+)/i` anchored at the front of
      `s`. `\d+` is greedy and a digit is never `,`, so each capture is the
      whole run of digits. */
  function MatchHere(s: string): Option<Rgb> {
    var o := OpeningLength(s);
    if o == 0 then None else Captures(s[o..])
  }

  /** The part `(\d+),` of the pattern at the front of `t`: the value of
      the digits and the text after the comma. */
  function Group(t: string): Option<(nat, string)> {
    var n := LeadingDigits(t);
    if n == 0 || n == |t| || t[n] != ',' then None
    else Some((DecToNat(t[..n]), t[n + 1..]))
  }

  /** The part `(\d+),(\d+),(\d+)` of the pattern, anchored at the
      front of `t`. */
  function Captures(t: string): Option<Rgb> {
    match Group(t)
    case None => None
    case Some((r, t2)) =>
      match Group(t2)
      case None => None
      case Some((g, t3)) =>
        var n := LeadingDigits(t3);
        if n == 0 then None else Some(Rgb(r, g, DecToNat(t3[..n])))
  }

  /** The match starting exactly at index `i`. */
  function MatchAt(s: string, i: nat): Option<Rgb>
    requires i <= |s|
  {
    MatchHere(s[i..])
  }

  /** `String.prototype.match` without the `g` flag: the leftmost position
      at or after `i` where the pattern matches. */
  function FirstMatch(s: string, i: nat): (p: Option<nat>)
    requires i <= |s|
    ensures p.Some? ==> i <= p.value <= |s| && MatchAt(s, p.value).Some?
    ensures p.Some? ==> forall k :: i <= k < p.value ==> MatchAt(s, k).None?
    ensures p.None? ==> forall k :: i <= k <= |s| ==> MatchAt(s, k).None?
    decreases |s| - i
  {
    if MatchAt(s, i).Some? then Some(i)
    else if i == |s| then None
    else FirstMatch(s, i + 1)
  }

  predicate StartsWithHash(s: string) { |s| > 0 && s[0] == '#' }

  /** `#${r}${g}${b}` with each channel written by `Hex2`. */
  function FormatHex(m: Rgb): (out: string)
    ensures |out| >= 7 && out[0] == '#'
    ensures forall k :: 1 <= k < |out| ==> IsHexDigit(out[k])
  {
    var r, g, b := Hex2(m.r), Hex2(m.g), Hex2(m.b);
    var out := "#" + r + g + b;
    assert forall k :: 1 <= k < |out| ==> IsHexDigit(out[k]) by {
      assert forall k :: 1 <= k < 1 + |r| ==> out[k] == r[k - 1];
      assert forall k :: 1 + |r| <= k < 1 + |r| + |g| ==> out[k] == g[k - 1 - |r|];
      assert forall k :: 1 + |r| + |g| <= k < |out| ==> out[k] == b[k - 1 - |r| - |g|];
    }
    out
  }

  /** No position of `s` starts a match of the pattern. */
  predicate NoMatch(s: string) {
    forall k :: 0 <= k <= |s| ==> MatchAt(s, k).None?
  }

  /** `s.match(/rgba?\((\d+),(\d+),(\d+)/i)`: the captures of the leftmost
      match, if any. */
  function FindRgb(s: string): (m: Option<Rgb>)
    ensures m.None? <==> NoMatch(s)
    ensures m.Some? ==> exists p :: 0 <= p <= |s| && m == MatchAt(s, p)
                                    && forall k :: 0 <= k < p ==> MatchAt(s, k).None?
  {
    match FirstMatch(s, 0)
    case None => None
    case Some(p) => MatchAt(s, p)
  }

  /** `rgbToHex(color)`. `None` stands for `null`. */
  function RgbToHex(color: string): (r: Option<string>)
    ensures color == "" ==> r.None?
    ensures color != "" && StartsWithHash(StripSpaces(color)) ==> r == Some(StripSpaces(color))
    ensures color != "" && !StartsWithHash(StripSpaces(color)) ==> (r.None? <==> NoMatch(StripSpaces(color)))
    ensures r.Some? ==> StartsWithHash(r.value)
  {
    if color == "" then None
    else
      var c := StripSpaces(color);
      if StartsWithHash(c) then Some(c)
      else match FindRgb(c)
        case None => None
        case Some(m) => Some(FormatHex(m))
  }

  // ------------------------------------------------------------ round trip

  /** Decimal text has no white space. */
  lemma DecimalHasNoSpaces(d: string)
    requires AllDigits(d)
    ensures NoSpaces(d)
  {
    assert forall k :: 0 <= k < |d| ==> IsDigit(d[k]);
  }

  /** Digits `d` followed by a non-digit: the leading run is exactly `d`. */
  lemma {:induction false} LeadingDigitsOf(d: string, rest: string)
    requires AllDigits(d) && |rest| > 0 && !IsDigit(rest[0])
    ensures LeadingDigits(d + rest) == |d|
    decreases |d|
  {
    if |d| > 0 {
      assert (d + rest)[1..] == d[1..] + rest;
      LeadingDigitsOf(d[1..], rest);
    } else {
      assert d + rest == rest;
    }
  }

  /** Digits `d`, a comma and `rest`: the leading run is `d` and the text
      after the comma is `rest`. */
  lemma DigitsComma(d: string, rest: string)
    requires AllDigits(d)
    ensures LeadingDigits(d + ("," + rest)) == |d|
    ensures (d + ("," + rest))[..|d|] == d && (d + ("," + rest))[|d|] == ','
    ensures (d + ("," + rest))[|d| + 1..] == rest
  {
    CommaSplit(d, rest);
    LeadingDigitsOf(d, "," + rest);
  }

  /** Where the digits, the comma and the rest sit in their concatenation. */
  lemma CommaSplit(d: string, rest: string)
    ensures (d + ("," + rest))[..|d|] == d && (d + ("," + rest))[|d|] == ','
    ensures (d + ("," + rest))[|d| + 1..] == rest
  {
  }

  /** Text `rgba(`, digits `dr`, `,`, digits `dg`, `,`, digits `db` and a
      non-digit matches with those three captures. */
  lemma MatchHereRgba(dr: string, dg: string, db: string, rest: string)
    requires |dr| > 0 && |dg| > 0 && |db| > 0
    requires AllDigits(dr) && AllDigits(dg) && AllDigits(db)
    requires |rest| > 0 && !IsDigit(rest[0])
    ensures MatchHere("rgba(" + Channels(dr, dg, db, rest))
         == Some(Rgb(DecToNat(dr), DecToNat(dg), DecToNat(db)))
  {
    MatchAfterOpening(Channels(dr, dg, db, rest));
    CapturesOf(dr, dg, db, rest);
  }

  /** After `rgba(` the rest of the pattern is tried on what follows. */
  lemma MatchAfterOpening(t: string)
    ensures MatchHere("rgba(" + t) == Captures(t)
  {
    var s := "rgba(" + t;
    assert OpeningLength(s) == 5 && s[5..] == t by {
      assert s[0] == 'r' && s[1] == 'g' && s[2] == 'b' && s[3] == 'a' && s[4] == '(';
    }
  }

  /** After `rgb(` the rest of the pattern is tried on what follows. */
  lemma MatchAfterRgb(t: string)
    ensures MatchHere("rgb(" + t) == Captures(t)
  {
    var s := "rgb(" + t;
    assert OpeningLength(s) == 4 && s[4..] == t by {
      assert s[0] == 'r' && s[1] == 'g' && s[2] == 'b' && s[3] == '(';
    }
  }

  /** Three comma-separated runs of digits followed by a non-digit are the
      three captures. */
  lemma CapturesOf(dr: string, dg: string, db: string, rest: string)
    requires |dr| > 0 && |dg| > 0 && |db| > 0
    requires AllDigits(dr) && AllDigits(dg) && AllDigits(db)
    requires |rest| > 0 && !IsDigit(rest[0])
    ensures Captures(Channels(dr, dg, db, rest))
         == Some(Rgb(DecToNat(dr), DecToNat(dg), DecToNat(db)))
  {
    GroupOf(dr, dg + ("," + (db + rest)));
    GroupOf(dg, db + rest);
    assert LeadingDigits(db + rest) == |db| && (db + rest)[..|db|] == db by {
      LeadingDigitsOf(db, rest);
    }
  }

  /** A run of digits and a comma is one group. */
  lemma GroupOf(d: string, rest: string)
    requires |d| > 0 && AllDigits(d)
    ensures Group(d + ("," + rest)) == Some((DecToNat(d), rest))
  {
    DigitsComma(d, rest);
  }

  /** The six hex digits read as three bytes and written back by
      `FormatHex` are the digits lower-cased. */
  lemma FormatHexOfBytes(h: string)
    requires HasSixHexDigits(h)
    ensures FormatHex(Rgb(ByteAt(h, 0), ByteAt(h, 2), ByteAt(h, 4))) == "#" + LowerAll(h[..6])
  {
    var m := Rgb(ByteAt(h, 0), ByteAt(h, 2), ByteAt(h, 4));
    ByteHex2(h, 0);
    ByteHex2(h, 2);
    ByteHex2(h, 4);
    assert FormatHex(m) == "#" + Hex2(m.r) + Hex2(m.g) + Hex2(m.b);
    LowerSix(h);
  }

  /** A byte of six hex digits, written as padded hex, is its two digits
      lower-cased. */
  lemma ByteHex2(h: string, i: nat)
    requires HasSixHexDigits(h) && i <= 4
    ensures Hex2(ByteAt(h, i)) == [ToLower(h[i]), ToLower(h[i + 1])]
  {
    Hex2OfDigits(h[i], h[i + 1]);
  }

  /** Lower-casing six characters, written out as three pairs. */
  lemma LowerSix(h: string)
    requires |h| >= 6
    ensures "#" + LowerAll(h[..6]) == "#" + [ToLower(h[0]), ToLower(h[1])] + [ToLower(h[2]), ToLower(h[3])] + [ToLower(h[4]), ToLower(h[5])]
  {
    var l := LowerAll(h[..6]);
    assert l == [l[0], l[1], l[2], l[3], l[4], l[5]];
  }

  /** Regrouping a seven-part concatenation to the right. */
  lemma Regroup(a: string, b: string, c: string, d: string, e: string, f: string, g: string)
    ensures a + b + c + d + e + f + g == a + (b + (c + (d + (e + (f + g)))))
  {
  }

  /** Text without white space stays so when concatenated. */
  lemma NoSpacesAppend(a: string, b: string)
    requires NoSpaces(a) && NoSpaces(b)
    ensures NoSpaces(a + b)
  {
  }

  /** The part of `hexToRgba`'s text before the alpha has no white space. */
  lemma RgbaHeadNoSpaces(dr: string, dg: string, db: string)
    requires AllDigits(dr) && AllDigits(dg) && AllDigits(db)
    ensures NoSpaces("rgba(" + dr + "," + dg + "," + db + ",")
  {
    DecimalHasNoSpaces(dr);
    DecimalHasNoSpaces(dg);
    DecimalHasNoSpaces(db);
    NoSpacesAppend("rgba(", dr);
    NoSpacesAppend("rgba(" + dr, ",");
    NoSpacesAppend("rgba(" + dr + ",", dg);
    NoSpacesAppend("rgba(" + dr + "," + dg, ",");
    NoSpacesAppend("rgba(" + dr + "," + dg + ",", db);
    NoSpacesAppend("rgba(" + dr + "," + dg + "," + db, ",");
  }

  /** Stripping `head + alpha + ")"` with a head free of white space
      strips only the alpha. */
  lemma StripAroundAlpha(head: string, alpha: string)
    requires NoSpaces(head)
    ensures StripSpaces(head + (alpha + ")")) == head + (StripSpaces(alpha) + ")")
  {
    StripSpacesAppend(head, alpha + ")");
    StripSpacesAppend(alpha, ")");
  }

  /** With white space stripped, the `rgba(...)` text of three decimal
      channels is `rgba(`, the channels separated by commas, `,`, the
      stripped alpha and `)`. */
  lemma StrippedRgba(dr: string, dg: string, db: string, alpha: string)
    requires AllDigits(dr) && AllDigits(dg) && AllDigits(db)
    ensures StripSpaces(RgbaText(dr, dg, db, alpha))
            == "rgba(" + (dr + ("," + (dg + ("," + (db + ("," + (StripSpaces(alpha) + ")")))))))
  {
    var head := "rgba(" + dr + "," + dg + "," + db + ",";
    assert RgbaText(dr, dg, db, alpha) == head + (alpha + ")");
    RgbaHeadNoSpaces(dr, dg, db);
    StripAroundAlpha(head, alpha);
    Regroup("rgba(", dr, ",", dg, ",", db, "," + (StripSpaces(alpha) + ")"));
  }

  /** A match at the very front is the leftmost one. */
  lemma FindRgbAtFront(c: string)
    requires MatchAt(c, 0).Some?
    ensures FindRgb(c) == MatchAt(c, 0)
  {
  }

  /** For any six-hex-digit colour, `rgbToHex(hexToRgba(hex, alpha))` gives
      back the colour as `#` and its digits lower-cased, whatever the
      alpha. */
  lemma RgbToHexOfHexToRgba(hex: string, alpha: string)
    requires HasSixHexDigits(RemoveFirstHash(hex))
    ensures RgbToHex(HexToRgba(hex, alpha)) == Some("#" + LowerAll(RemoveFirstHash(hex)[..6]))
  {
    var h := RemoveFirstHash(hex);
    var r, g, b := ByteAt(h, 0), ByteAt(h, 2), ByteAt(h, 4);
    var c := StripSpaces(HexToRgba(hex, alpha));
    assert c == StripSpaces(RgbaText(NatToDec(r), NatToDec(g), NatToDec(b), alpha));
    StrippedRgbaMatches(r, g, b, alpha);
    FindRgbAtFront(c);
    FormatHexOfBytes(h);
  }

  /** The stripped `rgba(...)` text of three channel values matches at its
      front, with those values as captures. */
  lemma StrippedRgbaMatches(r: nat, g: nat, b: nat, alpha: string)
    ensures var c := StripSpaces(RgbaText(NatToDec(r), NatToDec(g), NatToDec(b), alpha));
            |c| > 0 && c[0] == 'r' && MatchAt(c, 0) == Some(Rgb(r, g, b))
  {
    var c := StripSpaces(RgbaText(NatToDec(r), NatToDec(g), NatToDec(b), alpha));
    StrippedRgba(NatToDec(r), NatToDec(g), NatToDec(b), alpha);
    MatchHereRgba(NatToDec(r), NatToDec(g), NatToDec(b), "," + (StripSpaces(alpha) + ")"));
    DecToNatOfNatToDec(r);
    DecToNatOfNatToDec(g);
    DecToNatOfNatToDec(b);
    assert c[0..] == c;
  }

  /** Three runs of digits and a non-digit, joined by commas. */
  function Channels(dr: string, dg: string, db: string, rest: string): string {
    dr + ("," + (dg + ("," + (db + rest))))
  }

  /** `rgbToHex` strips white space first, so stripping it beforehand
      changes nothing. */
  lemma RgbToHexStripped(color: string)
    requires StripSpaces(color) != ""
    ensures RgbToHex(color) == RgbToHex(StripSpaces(color))
  {
    assert StripSpaces(StripSpaces(color)) == StripSpaces(color);
  }

  /** `rgbToHex` on an `rgb(` or `rgba(` colour in any letter case (the
      pattern carries the `i` flag) with three decimal channels,
      white space anywhere included, as in the computed-style form
      `rgb(121, 191, 233)`: the channels' values written as `#` and two or
      more lower-case hex digits each. */
  lemma RgbToHexOfRgbText(color: string, open: string, dr: string, dg: string, db: string, rest: string)
    requires LowerAll(open) == "rgb(" || LowerAll(open) == "rgba("
    requires |dr| > 0 && |dg| > 0 && |db| > 0
    requires AllDigits(dr) && AllDigits(dg) && AllDigits(db)
    requires |rest| > 0 && !IsDigit(rest[0])
    requires StripSpaces(color) == open + Channels(dr, dg, db, rest)
    ensures RgbToHex(color) == Some(FormatHex(Rgb(DecToNat(dr), DecToNat(dg), DecToNat(db))))
  {
    var c := StripSpaces(color);
    RgbToHexOfCompactRgb(c, open, dr, dg, db, rest);
    RgbToHexStripped(color);
  }

  /** The same on text that has no white space. */
  lemma RgbToHexOfCompactRgb(c: string, open: string, dr: string, dg: string, db: string, rest: string)
    requires LowerAll(open) == "rgb(" || LowerAll(open) == "rgba("
    requires |dr| > 0 && |dg| > 0 && |db| > 0
    requires AllDigits(dr) && AllDigits(dg) && AllDigits(db)
    requires |rest| > 0 && !IsDigit(rest[0])
    requires NoSpaces(c) && c == open + Channels(dr, dg, db, rest)
    ensures RgbToHex(c) == Some(FormatHex(Rgb(DecToNat(dr), DecToNat(dg), DecToNat(db))))
  {
    assert StripSpaces(c) == c;
    assert MatchAt(c, 0) == Some(Rgb(DecToNat(dr), DecToNat(dg), DecToNat(db))) by {
      OpenedMatch(open, Channels(dr, dg, db, rest));
      CapturesOf(dr, dg, db, rest);
    }
    assert c[0] != '#' by {
      assert c[0] == open[0] && ToLower(open[0]) == LowerAll(open)[0];
    }
    FindRgbAtFront(c);
  }

  /** Either opening, then the rest of the pattern on what follows. */
  lemma OpenedMatch(open: string, t: string)
    requires LowerAll(open) == "rgb(" || LowerAll(open) == "rgba("
    ensures MatchAt(open + t, 0) == Captures(t)
  {
    var s := open + t;
    assert s[0..] == s;
    assert s[..|open|] == open && s[|open|..] == t;
    assert OpeningLength(s) == |open|;
  }
}

=== FILE: controller.dfy ===
/** The wiring of app.js: `init` (load the counter, the history and the
    theme) and the event listeners `initListeners` installs, as a step
    function over the page state. */
module Controller {
  import opened Wrappers
  import opened Text
  import opened Records
  import opened SessionStorage
  import opened History
  import opened Counter
  import opened ThemeStore

  /** What the user or the browser does. The values a handler reads from
      the page (the manual number, a confirmation answer, a button's
      `data-value`) travel with the action. */
  datatype Action =
    | MeterClick
    | MeterKey(code: string)
    | ControlClick(button: Option<(string, int)>)
    | AddClick(manual: Option<int>)
    | SubClick(manual: Option<int>)
    | SetClick(manual: Option<int>)
    | ResetClick(confirmed: bool)
    | ClearHistoryClick(confirmed: bool)
    | Persist
    | EditTheme(fields: Fields)
    | PreviewClick(glass2: Alpha)
    | SaveThemeClick(glass2: Alpha)
    | ResetThemeClick(confirmed: bool)

  /** An action and the time it happens at. */
  datatype Event = Event(action: Action, now: Time)

  function Abs(x: int): (r: int)
    ensures r >= 0 && (r == x || r == -x)
  {
    if x < 0 then -x else x
  }

  /** The listener of the `.controls` area: a click on a button with
      `data-action` "inc" or "dec" changes the count by the absolute value
      of its `data-value`; any other click does nothing. */
  function Control(s: State, button: Option<(string, int)>, now: Time): (r: State)
    ensures button.None? || (button.value.0 != "inc" && button.value.0 != "dec") ==> r == s
    ensures button.Some? && button.value.0 == "inc" ==>
              r.count == Max0(s.count + Abs(button.value.1))
              && r.history == Push(s.history, Entry(now, Abs(button.value.1), Change, r.count))
    ensures button.Some? && button.value.0 == "dec" ==>
              r.count == Max0(s.count - Abs(button.value.1))
              && r.history == Push(s.history, Entry(now, -Abs(button.value.1), Change, r.count))
    ensures r.startedAt == s.startedAt && r.style == s.style && r.store.full == s.store.full
    ensures r.store.items - {CounterKey, HistoryKey} == s.store.items - {CounterKey, HistoryKey}
  {
    match button
    case None => s
    case Some((action, value)) =>
      if action == "inc" then ChangeBy(s, Abs(value), now)
      else if action == "dec" then ChangeBy(s, 0 - Abs(value), now)
      else s
  }

  /** The actions of the theme editor. */
  predicate IsThemeAction(a: Action) {
    a.EditTheme? || a.PreviewClick? || a.SaveThemeClick? || a.ResetThemeClick?
  }

  /** One event handled by its listener. */
  function Step(s: State, e: Event): State {
    if IsThemeAction(e.action) then ThemeStep(s, e.action) else CounterStep(s, e.action, e.now)
  }

  /** The listeners of the meter, the counter buttons, the history and
      the timers; none of them touches the theme. */
  function CounterStep(s: State, a: Action, now: Time): (r: State)
    requires !IsThemeAction(a)
    ensures r.style == s.style && r.startedAt == s.startedAt && r.store.full == s.store.full
    ensures r.store.items - {CounterKey, HistoryKey} == s.store.items - {CounterKey, HistoryKey}
    ensures Valid(s) ==> Valid(r)
  {
    match a
    case MeterClick => ChangeBy(s, 1, now)
    case MeterKey(code) => if code == "Space" || code == "Enter" then ChangeBy(s, 1, now) else s
    case ControlClick(button) => Control(s, button, now)
    case AddClick(v) => ManualAdd(s, v, now)
    case SubClick(v) => ManualSub(s, v, now)
    case SetClick(v) => SetExact(s, v, now)
    case ResetClick(ok) => ResetCounter(s, ok, now)
    case ClearHistoryClick(ok) => ClearHistory(s, true, ok)
    case Persist => SaveState(s, now)
  }

  /** The listeners of the theme editor; none of them touches the count,
      the times, the log, or any stored key but the theme key. */
  function ThemeStep(s: State, a: Action): (r: State)
    requires IsThemeAction(a)
    ensures r.count == s.count && r.startedAt == s.startedAt && r.lastSaved == s.lastSaved
    ensures r.history == s.history && r.store.full == s.store.full
    ensures r.store.items - {ThemeKey} == s.store.items - {ThemeKey}
  {
    match a
    case EditTheme(f) => s.(style := s.style.(fields := f))
    case PreviewClick(g) => PreviewTheme(s, g)
    case SaveThemeClick(g) => SaveTheme(s, g)
    case ResetThemeClick(ok) => ResetTheme(s, ok)
  }

  function Run(s: State, es: seq<Event>): State
    decreases |es|
  {
    if |es| == 0 then s else Run(Step(s, es[0]), es[1..])
  }

  /** `init`: `loadState`, then `loadHistory`, then `loadTheme`, on the
      storage of the session and the page's initial style. Boot stops
      (`None`) only when `loadState` lets an error escape, which needs a
      storage that refuses writes. */
  function Init(st: Store, style: Style, now: Time): (r: Option<State>)
    ensures r.None? <==> LoadState(st, now).None?
    ensures r.None? ==> st.full
    ensures r.Some? ==> r.value.history == LoadHistory(st) && r.value.store == LoadState(st, now).value.store
    ensures r.Some? ==> Holds(r.value.store, StartKey, StartRec(r.value.startedAt))
    ensures r.Some? && ReadCounter(GetItem(st, CounterKey)).Some? ==>
              (r.value.count, r.value.lastSaved) == ReadCounter(GetItem(st, CounterKey)).value
    ensures r.Some? && ReadCounter(GetItem(st, CounterKey)).None? ==>
              r.value.count == 0 && r.value.lastSaved.None? && r.value.startedAt == now
    ensures r.Some? && GetItem(st, ThemeKey).Some? && GetItem(st, ThemeKey).value.ThemeRec? ==>
              var t := GetItem(st, ThemeKey).value.theme;
              r.value.style == Style(ApplyVars(style.vars, t), LoadFields(style.fields, t))
    ensures r.Some? && !(GetItem(st, ThemeKey).Some? && GetItem(st, ThemeKey).value.ThemeRec?) ==>
              r.value.style == style
  {
    match LoadState(st, now)
    case None => None
    case Some(b) =>
      KeysDistinct();
      KeepsOtherKeys(st, b.store, {StartKey}, HistoryKey);
      KeepsOtherKeys(st, b.store, {StartKey}, ThemeKey);
      Some(LoadTheme(State(b.count, b.startedAt, b.lastSaved, LoadHistory(b.store), b.store, style)))
  }

  // ------------------------------------------------------------ invariants

  /** Every handler keeps the count non-negative and the log within the
      cap. */
  lemma StepPreservesValid(s: State, e: Event)
    requires Valid(s)
    ensures Valid(Step(s, e))
  {
  }

  /** No handler changes the start time or whether storage accepts
      writes. */
  lemma StepKeepsSession(s: State, e: Event)
    ensures Step(s, e).startedAt == s.startedAt && Step(s, e).store.full == s.store.full
  {
  }

  /** Every handler keeps storage in step with the state. */
  lemma StepPersists(s: State, e: Event)
    requires Persisted(s)
    ensures Persisted(Step(s, e))
  {
    ActionPersists(s, e.action, e.now);
  }

  /** Any action, of the theme editor or not, keeps storage in step. */
  lemma ActionPersists(s: State, a: Action, now: Time)
    requires Persisted(s)
    ensures Persisted(Step(s, Event(a, now)))
  {
    if IsThemeAction(a) {
      ThemeActionPersists(s, a, now);
    } else {
      CounterActionPersists(s, a, now);
    }
  }

  /** The actions outside the theme editor keep storage in step. */
  lemma CounterActionPersists(s: State, a: Action, now: Time)
    requires Persisted(s) && !IsThemeAction(a)
    ensures Persisted(Step(s, Event(a, now)))
  {
    assert Step(s, Event(a, now)) == CounterStep(s, a, now);
    if a.MeterClick? || a.MeterKey? || a.ControlClick? || a.Persist? {
      ClickPersists(s, a, now);
    } else {
      PanelPersists(s, a, now);
    }
  }

  /** The meter, the counter buttons and the timers keep storage in step. */
  lemma ClickPersists(s: State, a: Action, now: Time)
    requires Persisted(s)
    requires a.MeterClick? || a.MeterKey? || a.ControlClick? || a.Persist?
    ensures Persisted(CounterStep(s, a, now))
  {
    match a
    case MeterClick =>
      ChangeByPersists(s, 1, now);
    case MeterKey(code) =>
      ChangeByPersists(s, 1, now);
    case ControlClick(button) =>
      if button.Some? {
        ChangeByPersists(s, Abs(button.value.1), now);
        ChangeByPersists(s, 0 - Abs(button.value.1), now);
      }
    case Persist =>
      SaveStatePersists(s, now);
  }

  /** The buttons of the settings panel keep storage in step. */
  lemma PanelPersists(s: State, a: Action, now: Time)
    requires Persisted(s) && !IsThemeAction(a)
    requires !(a.MeterClick? || a.MeterKey? || a.ControlClick? || a.Persist?)
    ensures Persisted(CounterStep(s, a, now))
  {
    match a
    case AddClick(v) =>
      ManualAddPersists(s, v, now);
    case SubClick(v) =>
      ManualSubPersists(s, v, now);
    case SetClick(v) =>
      SetExactPersists(s, v, now);
    case ResetClick(ok) =>
      ResetPersists(s, ok, now);
    case ClearHistoryClick(ok) =>
      ClearHistoryPersists(s, true, ok);
  }

  /** The theme editor touches no stored key but the theme key. */
  lemma ThemeActionPersists(s: State, a: Action, now: Time)
    requires Persisted(s) && IsThemeAction(a)
    ensures Persisted(Step(s, Event(a, now)))
  {
    OnlyThemeKey(s, ThemeStep(s, a));
  }

  /** A run of events keeps the count non-negative and the log within
      the cap. */
  lemma {:induction false} RunPreservesValid(s: State, es: seq<Event>)
    requires Valid(s)
    ensures Valid(Run(s, es))
    decreases |es|
  {
    if |es| > 0 {
      StepPreservesValid(s, es[0]);
      RunPreservesValid(Step(s, es[0]), es[1..]);
    }
  }

  /** A run of events keeps storage in step with the state, so a reload
      after any run on a writable storage restores the count, the start
      time, the last-saved time and the log. */
  lemma {:induction false} RunPersists(s: State, es: seq<Event>)
    requires Persisted(s)
    ensures Persisted(Run(s, es))
    decreases |es|
  {
    if |es| > 0 {
      StepPersists(s, es[0]);
      RunPersists(Step(s, es[0]), es[1..]);
    }
  }

  /** Right after boot, storage is in step with the state, unless the
      counter record could not be read (then the next boot takes a new
      start time again). */
  lemma InitPersisted(st: Store, style: Style, now: Time)
    requires Init(st, style, now).Some?
    requires ReadCounter(GetItem(st, CounterKey)).Some?
    ensures Persisted(Init(st, style, now).value)
  {
    KeysDistinct();
    var b := LoadState(st, now).value;
    KeepsOtherKeys(st, b.store, {StartKey}, CounterKey);
    KeepsOtherKeys(st, b.store, {StartKey}, HistoryKey);
  }

  /** Boot on a storage that refuses writes stops when there is no start
      time to read: the `catch` block's write escapes. */
  lemma BootAbortsWithoutStart(items: map<string, Record>, style: Style, now: Time)
    requires StartKey !in items
    ensures Init(Store(items, true), style, now).None?
  {
  }

  /** Reloading after any run on a writable storage gives back the state
      the run ended in. */
  lemma ReloadAfterRun(st: Store, style: Style, now: Time, es: seq<Event>, later: Time)
    requires Init(st, style, now).Some? && !st.full
    requires ReadCounter(GetItem(st, CounterKey)).Some?
    ensures var s := Run(Init(st, style, now).value, es);
            LoadState(s.store, later) == Some(Boot(s.count, s.lastSaved, s.startedAt, s.store))
            && LoadHistory(s.store) == s.history
  {
    var s0 := Init(st, style, now).value;
    InitPersisted(st, style, now);
    RunPersists(s0, es);
    RunKeepsFull(s0, es);
    ReloadRestores(Run(s0, es), later);
  }

  /** A run never changes the start time or whether storage accepts
      writes. */
  lemma {:induction false} RunKeepsFull(s: State, es: seq<Event>)
    ensures Run(s, es).store.full == s.store.full && Run(s, es).startedAt == s.startedAt
    decreases |es|
  {
    if |es| > 0 {
      StepKeepsSession(s, es[0]);
      RunKeepsFull(Step(s, es[0]), es[1..]);
    }
  }

  // -------------------------------------------------------------- scenarios

  /** A fresh session: nothing stored yet. */
  const Fresh: Store := Store(map[], false)

  /** A fresh session boots with count 0, no last-saved time, an empty
      log and the boot time as start time. */
  lemma FreshBoot(style: Style, t0: Time)
    ensures Init(Fresh, style, t0).Some?
    ensures var s := Init(Fresh, style, t0).value;
            s.count == 0 && s.lastSaved.None? && s.history == [] && s.startedAt == t0
  {
  }

  /** One click on the meter adds 1 and logs it in front. */
  lemma OneClick(s: State, t: Time)
    requires s.count >= 0 && |s.history| < Cap
    ensures Step(s, Event(MeterClick, t)).count == s.count + 1
    ensures Step(s, Event(MeterClick, t)).history == [Entry(t, 1, Change, s.count + 1)] + s.history
  {
    PushBelowCap(s.history, Entry(t, 1, Change, s.count + 1));
  }

  /** A click on the meter at each of the times `ts`, in order. */
  function Clicks(ts: seq<Time>): (es: seq<Event>)
    ensures |es| == |ts|
    ensures forall i :: 0 <= i < |ts| ==> es[i] == Event(MeterClick, ts[i])
  {
    seq(|ts|, i requires 0 <= i < |ts| => Event(MeterClick, ts[i]))
  }

  /** The entries those clicks log from count `c`, newest first: the
      click at `ts[k]` shows delta 1 and count `c + k + 1`. */
  function ClickLog(c: int, ts: seq<Time>): (log: seq<Entry>)
    ensures |log| == |ts|
    ensures forall k :: 0 <= k < |ts| ==> log[|ts| - 1 - k] == Entry(ts[k], 1, Change, c + k + 1)
    decreases |ts|
  {
    if |ts| == 0 then [] else ClickLog(c + 1, ts[1..]) + [Entry(ts[0], 1, Change, c + 1)]
  }

  /** `changeBy(1)` at each of the times `ts`, in order. */
  function ChangeByOnes(s: State, ts: seq<Time>): State
    decreases |ts|
  {
    if |ts| == 0 then s else ChangeByOnes(ChangeBy(s, 1, ts[0]), ts[1..])
  }

  /** A click on the meter is `changeBy(1)`. */
  lemma ClickIsChangeBy(s: State, t: Time)
    ensures Step(s, Event(MeterClick, t)) == ChangeBy(s, 1, t)
  {
  }

  /** Running clicks is calling `changeBy(1)` once per click. */
  lemma {:induction false} RunClicks(s: State, ts: seq<Time>)
    ensures Run(s, Clicks(ts)) == ChangeByOnes(s, ts)
    decreases |ts|
  {
    if |ts| > 0 {
      RunClicksCons(s, ts);
      ClickIsChangeBy(s, ts[0]);
      RunClicks(ChangeBy(s, 1, ts[0]), ts[1..]);
    }
  }

  /** Running clicks is one click and then the remaining clicks. */
  lemma RunClicksCons(s: State, ts: seq<Time>)
    requires |ts| > 0
    ensures Run(s, Clicks(ts)) == Run(Step(s, Event(MeterClick, ts[0])), Clicks(ts[1..]))
  {
    assert Clicks(ts)[1..] == Clicks(ts[1..]);
  }

  /** `n` calls of `changeBy(1)` add `n` to a non-negative count and log
      one entry each, newest first, with the running count. */
  lemma {:induction false} ChangeByOnesAddUp(s: State, ts: seq<Time>)
    requires s.count >= 0 && |s.history| + |ts| <= Cap
    ensures ChangeByOnes(s, ts).count == s.count + |ts|
    ensures ChangeByOnes(s, ts).history == ClickLog(s.count, ts) + s.history
    decreases |ts|
  {
    if |ts| > 0 {
      var e := Entry(ts[0], 1, Change, s.count + 1);
      var s1 := ChangeBy(s, 1, ts[0]);
      assert s1.count == s.count + 1 && s1.history == [e] + s.history by {
        PushBelowCap(s.history, e);
      }
      assert ChangeByOnes(s, ts) == ChangeByOnes(s1, ts[1..]);
      ChangeByOnesAddUp(s1, ts[1..]);
      ClickLogCons(s.count, ts, s.history);
    } else {
      assert ClickLog(s.count, ts) + s.history == s.history;
    }
  }

  /** The click log of one more click is the log of the rest before the
      first click's entry. */
  lemma ClickLogCons(c: int, ts: seq<Time>, h: seq<Entry>)
    requires |ts| > 0
    ensures ClickLog(c + 1, ts[1..]) + ([Entry(ts[0], 1, Change, c + 1)] + h) == ClickLog(c, ts) + h
  {
  }

  /** `n` clicks on the meter add `n` to a non-negative count and log one
      entry each, newest first, with the running count. */
  lemma ClicksAddUp(s: State, ts: seq<Time>)
    requires s.count >= 0 && |s.history| + |ts| <= Cap
    ensures Run(s, Clicks(ts)).count == s.count + |ts|
    ensures Run(s, Clicks(ts)).history == ClickLog(s.count, ts) + s.history
  {
    RunClicks(s, ts);
    ChangeByOnesAddUp(s, ts);
  }

  /** Three clicks on the meter from count 0 and an empty log give count
      3 and a log whose entries, newest first, show the counts 3, 2 and 1. */
  lemma ThreeClicks(s0: State, t1: Time, t2: Time, t3: Time)
    requires s0.count == 0 && s0.history == []
    ensures var s := Run(s0, Clicks([t1, t2, t3]));
            s.count == 3 && s.history == [Entry(t3, 1, Change, 3), Entry(t2, 1, Change, 2), Entry(t1, 1, Change, 1)]
  {
    var ts := [t1, t2, t3];
    ClicksAddUp(s0, ts);
    var log := ClickLog(0, ts);
    assert log[|ts| - 1 - 2] == Entry(ts[2], 1, Change, 3);
    assert log[|ts| - 1 - 1] == Entry(ts[1], 1, Change, 2);
    assert log[|ts| - 1 - 0] == Entry(ts[0], 1, Change, 1);
    assert log == [Entry(t3, 1, Change, 3), Entry(t2, 1, Change, 2), Entry(t1, 1, Change, 1)];
  }

  /** Setting a negative number stores 0 and logs it as `Set → 0`. */
  lemma SetNegative(s: State, now: Time)
    ensures Step(s, Event(SetClick(Some(-5)), now)).count == 0
    ensures Step(s, Event(SetClick(Some(-5)), now)).history[0] == Entry(now, 0, Set, 0)
    ensures Label(Step(s, Event(SetClick(Some(-5)), now)).history[0]) == "Set \U{2192} 0"
  {
    assert IntToDec(0) == "0";
  }

  /** Ten down from 3 stops at 0, and the log keeps the requested -10. */
  lemma ClampAtZero(s: State, now: Time)
    requires s.count == 3
    ensures Step(s, Event(ControlClick(Some(("dec", 10))), now)).count == 0
    ensures Step(s, Event(ControlClick(Some(("dec", 10))), now)).history[0] == Entry(now, -10, Change, 0)
  {
  }
}

=== FILE: counter.dfy ===
/** The counter of app.js: the page state, the persistence of the count,
    the start time and the history in session storage, and the counter
    actions (`changeBy`, the add / subtract / set buttons of the settings
    panel, reset, clearing the history). Each action takes the current
    time `now` as a parameter, standing for `nowISO()`. */
module Counter {
  import opened Wrappers
  import opened Records
  import opened SessionStorage
  import opened History

  /** The page state after boot: the variables `count`, `startedAt`,
      `lastSaved` and `history`, the session storage and the theme part of
      the page. `startedAt` is always set once `loadState` has run. */
  datatype State = State(
    count: int,
    startedAt: Time,
    lastSaved: Option<Time>,
    history: seq<Entry>,
    store: Store,
    style: Style)

  function Max0(x: int): (r: int)
    ensures r >= 0 && r >= x && (r == x || r == 0)
  {
    if x < 0 then 0 else x
  }

  /** `Number(x) || 0` for the manual-number input: `None` stands for a
      value `Number` turns into `NaN`. */
  function Coerce(x: Option<int>): int {
    x.GetOr(0)
  }

  /** The four keys are pairwise different. */
  lemma KeysDistinct()
    ensures CounterKey != StartKey && CounterKey != ThemeKey && CounterKey != HistoryKey
    ensures StartKey != ThemeKey && StartKey != HistoryKey && ThemeKey != HistoryKey
  {
    assert CounterKey[13] == 'v' && StartKey[13] == 's' && ThemeKey[13] == 't' && HistoryKey[13] == 'h';
  }

  // ------------------------------------------------------------ persistence

  /** `saveState`: writes `{count, lastSaved: now}` to the counter key and
      then sets `lastSaved`; when the write throws, the error is caught and
      nothing changes. */
  function SaveState(s: State, now: Time): (r: State)
    ensures r.count == s.count && r.startedAt == s.startedAt && r.history == s.history
    ensures r.style == s.style && r.store.full == s.store.full
    ensures !s.store.full ==> Holds(r.store, CounterKey, CounterRec(s.count, now)) && r.lastSaved == Some(now)
    ensures s.store.full ==> r == s
    ensures r.store.items - {CounterKey} == s.store.items - {CounterKey}
  {
    if s.store.full then s
    else s.(store := SetItem(s.store, CounterKey, CounterRec(s.count, now)), lastSaved := Some(now))
  }

  /** What the `try` block of `loadState` makes of the counter key: the
      count and last-saved time, or `None` where `JSON.parse` throws. A
      missing key gives `(0, null)`; a parsed value without a usable
      `count` (a theme object or a history array) gives `count` 0 via
      `Number(undefined) || 0` and `lastSaved` null. The stored count is
      taken as it is, negative or not. */
  function ReadCounter(r: Option<Record>): (v: Option<(int, Option<Time>)>)
    ensures r.None? ==> v == Some((0, None))
    ensures r.Some? && r.value.CounterRec? ==> v == Some((r.value.count, Some(r.value.lastSaved)))
    ensures v.None? <==> r.Some? && (r.value.StartRec? || r.value.Unparseable?)
    ensures r.Some? && (r.value.ThemeRec? || r.value.HistoryRec?) ==> v == Some((0, None))
  {
    match r
    case None => Some((0, None))
    case Some(CounterRec(c, t)) => Some((c, Some(t)))
    case Some(ThemeRec(_)) => Some((0, None))
    case Some(HistoryRec(_)) => Some((0, None))
    case Some(_) => None
  }

  /** The variables `loadState` sets, and the storage it leaves. */
  datatype Boot = Boot(count: int, lastSaved: Option<Time>, startedAt: Time, store: Store)

  /** The `catch` block of `loadState`: count 0, no last-saved time, a new
      start time, written to the start key. That write is not guarded: if
      it throws, the error escapes `loadState` and boot stops (`None`). */
  function Recover(st: Store, now: Time): Option<Boot> {
    if st.full then None
    else Some(Boot(0, None, now, SetItem(st, StartKey, StartRec(now))))
  }

  /** `loadState`. The start time is taken from the start key when it
      holds one; otherwise `now` becomes the start time and is written
      there. An unreadable counter record, or a failing write of the
      start time, sends control to the `catch` block. */
  function LoadState(st: Store, now: Time): (b: Option<Boot>)
    ensures b.None? <==> st.full && (ReadCounter(GetItem(st, CounterKey)).None?
                                     || GetItem(st, StartKey).None?
                                     || !GetItem(st, StartKey).value.StartRec?)
    ensures b.Some? ==> Holds(b.value.store, StartKey, StartRec(b.value.startedAt))
    ensures b.Some? ==> b.value.store.full == st.full
                        && b.value.store.items - {StartKey} == st.items - {StartKey}
    ensures b.Some? && ReadCounter(GetItem(st, CounterKey)).Some? ==>
              (b.value.count, b.value.lastSaved) == ReadCounter(GetItem(st, CounterKey)).value
    ensures b.Some? && ReadCounter(GetItem(st, CounterKey)).None? ==>
              b.value.count == 0 && b.value.lastSaved.None? && b.value.startedAt == now
    ensures ReadCounter(GetItem(st, CounterKey)).Some? && GetItem(st, StartKey).Some?
            && GetItem(st, StartKey).value.StartRec? ==>
              b.Some? && b.value.startedAt == GetItem(st, StartKey).value.at && b.value.store == st
    ensures b.Some? && !(GetItem(st, StartKey).Some? && GetItem(st, StartKey).value.StartRec?) ==>
              b.value.startedAt == now
  {
    match ReadCounter(GetItem(st, CounterKey))
    case None => Recover(st, now)
    case Some((c, ls)) =>
      match GetItem(st, StartKey)
      case Some(StartRec(t)) => Some(Boot(c, ls, t, st))
      case _ =>
        if st.full then Recover(st, now)
        else Some(Boot(c, ls, now, SetItem(st, StartKey, StartRec(now))))
  }

  /** `loadHistory`: the stored array, or the empty log when the key is
      missing or its text does not parse. */
  function LoadHistory(st: Store): (h: seq<Entry>)
    ensures GetItem(st, HistoryKey).Some? && GetItem(st, HistoryKey).value.HistoryRec? ==>
              h == GetItem(st, HistoryKey).value.entries
    ensures !(GetItem(st, HistoryKey).Some? && GetItem(st, HistoryKey).value.HistoryRec?) ==> h == []
  {
    match GetItem(st, HistoryKey)
    case Some(HistoryRec(es)) => es
    case _ => []
  }

  /** `saveHistory`: the log is written to the history key; a failing
      write is caught and ignored. */
  function SaveHistory(s: State): (r: State)
    ensures r.count == s.count && r.startedAt == s.startedAt && r.lastSaved == s.lastSaved
    ensures r.history == s.history && r.style == s.style && r.store.full == s.store.full
    ensures !s.store.full ==> LoadHistory(r.store) == s.history
    ensures s.store.full ==> r == s
    ensures r.store.items - {HistoryKey} == s.store.items - {HistoryKey}
  {
    s.(store := SetItem(s.store, HistoryKey, HistoryRec(s.history)))
  }

  /** `recordHistory(delta, kind)`: a new entry stamped `now` with the
      current count goes in front of the log, the log is cut to the cap
      and saved. */
  function RecordHistory(s: State, delta: int, kind: Kind, now: Time): (r: State)
    ensures r.count == s.count && r.startedAt == s.startedAt && r.lastSaved == s.lastSaved
    ensures r.style == s.style && r.store.full == s.store.full
    ensures 0 < |r.history| <= Cap && |r.history| <= |s.history| + 1
    ensures r.history[0] == Entry(now, delta, kind, s.count)
    ensures r.history[1..] == s.history[..|r.history| - 1]
    ensures r.history == Push(s.history, Entry(now, delta, kind, s.count))
    ensures !s.store.full ==> LoadHistory(r.store) == r.history
    ensures s.store.full ==> r.store == s.store
    ensures r.store.items - {HistoryKey} == s.store.items - {HistoryKey}
  {
    SaveHistory(s.(history := Push(s.history, Entry(now, delta, kind, s.count))))
  }

  // ---------------------------------------------------------------- actions

  /** `changeBy(delta)`: the count moves by `delta` but not below zero, is
      saved, and the change is logged with the requested delta (not the
      applied one) and the new count. */
  function ChangeBy(s: State, delta: int, now: Time): (r: State)
    ensures r.count >= 0
    ensures r.count == s.count + delta || (r.count == 0 && s.count + delta < 0)
    ensures r.startedAt == s.startedAt && r.style == s.style && r.store.full == s.store.full
    ensures r.history == Push(s.history, Entry(now, delta, Change, r.count))
    ensures !s.store.full ==> Holds(r.store, CounterKey, CounterRec(r.count, now)) && r.lastSaved == Some(now)
    ensures !s.store.full ==> LoadHistory(r.store) == r.history
    ensures s.store.full ==> r.store == s.store && r.lastSaved == s.lastSaved
    ensures r.store.items - {CounterKey, HistoryKey} == s.store.items - {CounterKey, HistoryKey}
  {
    var moved := s.(count := Max0(s.count + delta));
    RecordHistory(SaveState(moved, now), delta, Change, now)
  }

  /** The "add" button: `changeBy(v)` and then a second entry of kind
      `Add` for the same delta. */
  function ManualAdd(s: State, v: Option<int>, now: Time): (r: State)
    ensures r.count == Max0(s.count + Coerce(v))
    ensures |r.history| >= 2
    ensures r.history[0] == Entry(now, Coerce(v), Add, r.count)
    ensures r.history[1] == Entry(now, Coerce(v), Change, r.count)
    ensures r.history == Push(Push(s.history, Entry(now, Coerce(v), Change, r.count)), Entry(now, Coerce(v), Add, r.count))
    ensures r.startedAt == s.startedAt && r.style == s.style && r.store.full == s.store.full
    ensures !s.store.full ==> Holds(r.store, CounterKey, CounterRec(r.count, now)) && r.lastSaved == Some(now)
    ensures !s.store.full ==> LoadHistory(r.store) == r.history
    ensures s.store.full ==> r.store == s.store && r.lastSaved == s.lastSaved
    ensures r.store.items - {CounterKey, HistoryKey} == s.store.items - {CounterKey, HistoryKey}
  {
    var d := Coerce(v);
    RecordHistory(ChangeBy(s, d, now), d, Add, now)
  }

  /** The "subtract" button: `changeBy(-v)` and then a second entry of
      kind `Sub` for `-v`. */
  function ManualSub(s: State, v: Option<int>, now: Time): (r: State)
    ensures r.count == Max0(s.count - Coerce(v))
    ensures |r.history| >= 2
    ensures r.history[0] == Entry(now, -Coerce(v), Sub, r.count)
    ensures r.history[1] == Entry(now, -Coerce(v), Change, r.count)
    ensures r.history == Push(Push(s.history, Entry(now, -Coerce(v), Change, r.count)), Entry(now, -Coerce(v), Sub, r.count))
    ensures r.startedAt == s.startedAt && r.style == s.style && r.store.full == s.store.full
    ensures !s.store.full ==> Holds(r.store, CounterKey, CounterRec(r.count, now)) && r.lastSaved == Some(now)
    ensures !s.store.full ==> LoadHistory(r.store) == r.history
    ensures s.store.full ==> r.store == s.store && r.lastSaved == s.lastSaved
    ensures r.store.items - {CounterKey, HistoryKey} == s.store.items - {CounterKey, HistoryKey}
  {
    var d := 0 - Coerce(v);
    RecordHistory(ChangeBy(s, d, now), d, Sub, now)
  }

  /** The "set" button: the count becomes `max(0, v)`, is saved, and a
      `Set` entry records it. */
  function SetExact(s: State, v: Option<int>, now: Time): (r: State)
    ensures r.count >= 0 && (r.count == Coerce(v) || (r.count == 0 && Coerce(v) < 0))
    ensures r.history == Push(s.history, Entry(now, r.count, Set, r.count))
    ensures r.startedAt == s.startedAt && r.style == s.style && r.store.full == s.store.full
    ensures !s.store.full ==> Holds(r.store, CounterKey, CounterRec(r.count, now)) && r.lastSaved == Some(now)
    ensures !s.store.full ==> LoadHistory(r.store) == r.history
    ensures s.store.full ==> r.store == s.store && r.lastSaved == s.lastSaved
    ensures r.store.items - {CounterKey, HistoryKey} == s.store.items - {CounterKey, HistoryKey}
  {
    var n := Max0(Coerce(v));
    RecordHistory(SaveState(s.(count := n), now), n, Set, now)
  }

  /** The reset button. Unconfirmed, nothing happens. Confirmed: the count
      becomes 0, a `Reset` entry is logged, the counter key is removed and
      `lastSaved` cleared, and then `saveState` writes the counter key
      again, so the key ends up holding count 0 unless storage is full. */
  function ResetCounter(s: State, confirmed: bool, now: Time): (r: State)
    ensures !confirmed ==> r == s
    ensures confirmed ==> r.count == 0 && r.history == Push(s.history, Entry(now, 0, Reset, 0))
    ensures confirmed && !s.store.full ==>
              Holds(r.store, CounterKey, CounterRec(0, now)) && r.lastSaved == Some(now)
    ensures confirmed && !s.store.full ==> LoadHistory(r.store) == r.history
    ensures confirmed && s.store.full ==> CounterKey !in r.store.items && r.lastSaved.None?
    ensures confirmed && s.store.full ==> GetItem(r.store, HistoryKey) == GetItem(s.store, HistoryKey)
    ensures r.startedAt == s.startedAt && r.style == s.style && r.store.full == s.store.full
    ensures r.store.items - {CounterKey, HistoryKey} == s.store.items - {CounterKey, HistoryKey}
  {
    if !confirmed then s
    else
      var logged := RecordHistory(s.(count := 0), 0, Reset, now);
      var removed := logged.(store := RemoveItem(logged.store, CounterKey), lastSaved := None);
      SaveState(removed, now)
  }

  /** `clearHistory(askConfirm)`: when asked and declined nothing happens;
      otherwise the log is emptied and saved. */
  function ClearHistory(s: State, askConfirm: bool, confirmed: bool): (r: State)
    ensures askConfirm && !confirmed ==> r == s
    ensures !(askConfirm && !confirmed) ==> r.history == [] && (!s.store.full ==> LoadHistory(r.store) == [])
    ensures r.count == s.count && r.startedAt == s.startedAt && r.lastSaved == s.lastSaved
    ensures r.style == s.style && r.store.full == s.store.full
    ensures s.store.full ==> r.store == s.store
    ensures r.store.items - {HistoryKey} == s.store.items - {HistoryKey}
  {
    if askConfirm && !confirmed then s else SaveHistory(s.(history := []))
  }

  // ------------------------------------------------------------- invariants

  /** The count is never negative and the log is within the cap. */
  predicate Valid(s: State) {
    s.count >= 0 && |s.history| <= Cap
  }

  /** Storage reflects the state: the start key holds the start time,
      and, unless storage refuses writes, reading the counter and history
      keys gives back the count, the last-saved time and the log. */
  predicate Persisted(s: State) {
    && Holds(s.store, StartKey, StartRec(s.startedAt))
    && (!s.store.full ==>
          ReadCounter(GetItem(s.store, CounterKey)) == Some((s.count, s.lastSaved))
          && LoadHistory(s.store) == s.history)
  }

  /** A persisted state survives a reload: `loadState` and `loadHistory`
      on its storage give back its count, last-saved time, start time and
      log, and write nothing. */
  lemma ReloadRestores(s: State, now: Time)
    requires Persisted(s)
    requires !s.store.full
    ensures LoadState(s.store, now) == Some(Boot(s.count, s.lastSaved, s.startedAt, s.store))
    ensures LoadHistory(s.store) == s.history
  {
  }

  /** A key outside the ones a write touched reads as before. */
  lemma KeepsOtherKeys(a: Store, b: Store, keys: set<string>, k: string)
    requires b.items - keys == a.items - keys
    requires k !in keys
    ensures GetItem(b, k) == GetItem(a, k)
  {
    assert k in b.items <==> k in b.items - keys;
    assert k in a.items <==> k in a.items - keys;
    if k in a.items {
      assert (a.items - keys)[k] == a.items[k];
      assert (b.items - keys)[k] == b.items[k];
    }
  }

  /** `saveState` keeps storage in step with the state. */
  lemma SaveStatePersists(s: State, now: Time)
    requires Persisted(s)
    ensures Persisted(SaveState(s, now))
  {
    KeysDistinct();
    KeepsOtherKeys(s.store, SaveState(s, now).store, {CounterKey}, StartKey);
    KeepsOtherKeys(s.store, SaveState(s, now).store, {CounterKey}, HistoryKey);
  }

  /** `changeBy` keeps storage in step with the state. */
  lemma ChangeByPersists(s: State, delta: int, now: Time)
    requires Persisted(s)
    ensures Persisted(ChangeBy(s, delta, now))
  {
    KeysDistinct();
    var r := ChangeBy(s, delta, now);
    KeepsOtherKeys(s.store, r.store, {CounterKey, HistoryKey}, StartKey);
    if !s.store.full {
      assert GetItem(r.store, CounterKey) == Some(CounterRec(r.count, now));
    }
  }

  /** The add button keeps storage in step with the state. */
  lemma ManualAddPersists(s: State, v: Option<int>, now: Time)
    requires Persisted(s)
    ensures Persisted(ManualAdd(s, v, now))
  {
    ChangeByPersists(s, Coerce(v), now);
    RecordKeepsCounter(ChangeBy(s, Coerce(v), now), Coerce(v), Add, now);
  }

  /** The subtract button keeps storage in step with the state. */
  lemma ManualSubPersists(s: State, v: Option<int>, now: Time)
    requires Persisted(s)
    ensures Persisted(ManualSub(s, v, now))
  {
    ChangeByPersists(s, 0 - Coerce(v), now);
    RecordKeepsCounter(ChangeBy(s, 0 - Coerce(v), now), 0 - Coerce(v), Sub, now);
  }

  /** Logging an entry leaves the counter and start keys alone. */
  lemma RecordKeepsCounter(s: State, delta: int, kind: Kind, now: Time)
    requires Persisted(s)
    ensures Persisted(RecordHistory(s, delta, kind, now))
  {
    KeysDistinct();
    var r := RecordHistory(s, delta, kind, now);
    KeepsOtherKeys(s.store, r.store, {HistoryKey}, StartKey);
    KeepsOtherKeys(s.store, r.store, {HistoryKey}, CounterKey);
  }

  /** The set button keeps storage in step with the state. */
  lemma SetExactPersists(s: State, v: Option<int>, now: Time)
    requires Persisted(s)
    ensures Persisted(SetExact(s, v, now))
  {
    KeysDistinct();
    var saved := SaveState(s.(count := Max0(Coerce(v))), now);
    KeepsOtherKeys(s.store, saved.store, {CounterKey}, StartKey);
    KeepsOtherKeys(s.store, saved.store, {CounterKey}, HistoryKey);
    if !s.store.full {
      assert GetItem(saved.store, CounterKey) == Some(CounterRec(saved.count, now));
    }
    RecordKeepsCounter(saved, Max0(Coerce(v)), Set, now);
  }

  /** Reset keeps storage in step with the state. */
  lemma ResetPersists(s: State, confirmed: bool, now: Time)
    requires Persisted(s)
    ensures Persisted(ResetCounter(s, confirmed, now))
  {
    if confirmed {
      KeysDistinct();
      var logged := RecordHistory(s.(count := 0), 0, Reset, now);
      var removed := logged.(store := RemoveItem(logged.store, CounterKey), lastSaved := None);
      var r := SaveState(removed, now);
      KeepsOtherKeys(s.store, logged.store, {HistoryKey}, StartKey);
      KeepsOtherKeys(logged.store, removed.store, {CounterKey}, StartKey);
      KeepsOtherKeys(removed.store, r.store, {CounterKey}, StartKey);
      KeepsOtherKeys(logged.store, removed.store, {CounterKey}, HistoryKey);
      KeepsOtherKeys(removed.store, r.store, {CounterKey}, HistoryKey);
      if !s.store.full {
        assert GetItem(r.store, CounterKey) == Some(CounterRec(0, now));
      }
    }
  }

  /** Clearing the log keeps storage in step with the state. */
  lemma ClearHistoryPersists(s: State, askConfirm: bool, confirmed: bool)
    requires Persisted(s)
    ensures Persisted(ClearHistory(s, askConfirm, confirmed))
  {
    KeysDistinct();
    var r := ClearHistory(s, askConfirm, confirmed);
    KeepsOtherKeys(s.store, r.store, {HistoryKey}, StartKey);
    KeepsOtherKeys(s.store, r.store, {HistoryKey}, CounterKey);
  }

  /** After a confirmed reset on a writable storage, a reload finds count
      0: the counter key is written again by the final `saveState`, not
      left empty. */
  lemma ResetThenLoad(s: State, now: Time, later: Time)
    requires Persisted(s) && !s.store.full
    ensures LoadState(ResetCounter(s, true, now).store, later).Some?
    ensures LoadState(ResetCounter(s, true, now).store, later).value.count == 0
    ensures LoadState(ResetCounter(s, true, now).store, later).value.lastSaved == Some(now)
  {
    ResetPersists(s, true, now);
    ReloadRestores(ResetCounter(s, true, now), later);
  }

  /** A stored negative count is loaded as it is; only the next change
      brings it back to zero or above. */
  lemma LoadKeepsNegative(t: Time, now: Time)
    ensures LoadState(Store(map[CounterKey := CounterRec(-5, t)], false), now).value.count == -5
  {
    KeysDistinct();
  }
}

=== FILE: history.dfy ===
/** The history log of app.js as a value: the bounded newest-first insert
    of `recordHistory`, and the read-only projection `renderHistory`
    makes of it, with the label text of each entry. */
module History {
  import opened Wrappers
  import opened Text
  import opened Records

  /** `recordHistory` keeps at most this many entries. */
  const Cap: nat := 500

  /** `renderHistory` shows at most this many entries. */
  const RenderLimit: nat := 200

  function Min(a: int, b: int): int { if a < b then a else b }

  // ---------------------------------------------------------------- insert

  /** `history.unshift(entry); if (history.length > 500) history.length =
      500`: the entry goes in front and the oldest entry falls off when
      the cap is exceeded. */
  function Push(log: seq<Entry>, e: Entry): (r: seq<Entry>)
    ensures |r| == Min(Cap, |log| + 1)
    ensures r[0] == e
    ensures r[1..] == log[..|r| - 1]
  {
    var grown := [e] + log;
    if |grown| > Cap then grown[..Cap] else grown
  }

  /** Nothing is lost while the log is below the cap. */
  lemma PushBelowCap(log: seq<Entry>, e: Entry)
    requires |log| < Cap
    ensures Push(log, e) == [e] + log
  {
  }

  /** At the cap, exactly the oldest entry is dropped. */
  lemma PushAtCap(log: seq<Entry>, e: Entry)
    requires |log| == Cap
    ensures Push(log, e) == [e] + log[..Cap - 1]
  {
  }

  /** Pushes `es[0]`, `es[1]`, ... in this order, as successive calls of
      `recordHistory` do. */
  function PushAll(log: seq<Entry>, es: seq<Entry>): seq<Entry>
    decreases |es|
  {
    if |es| == 0 then log else PushAll(Push(log, es[0]), es[1..])
  }

  /** The entries in the opposite order. */
  function Reverse(es: seq<Entry>): (r: seq<Entry>)
    ensures |r| == |es|
    ensures forall i :: 0 <= i < |es| ==> r[i] == es[|es| - 1 - i]
    decreases |es|
  {
    if |es| == 0 then [] else Reverse(es[1..]) + [es[0]]
  }

  /** Cutting after appending a prefix of `y` that reaches past the cut is
      cutting after appending all of `y`. */
  lemma TakeOfAppendTake(x: seq<Entry>, y: seq<Entry>, m: nat, n: nat)
    requires m <= |y| && n <= |x| + m
    ensures (x + y[..m])[..n] == (x + y)[..n]
  {
  }

  /** After one or more records the log is newest first: the latest entry
      leads, the earlier log follows, and only the oldest entries beyond
      the cap are gone. */
  lemma {:induction false} PushAllNewestFirst(log: seq<Entry>, es: seq<Entry>)
    requires |es| > 0
    ensures PushAll(log, es) == (Reverse(es) + log)[..Min(Cap, |es| + |log|)]
    decreases |es|
  {
    var e, rest := es[0], es[1..];
    var p := Push(log, e);
    assert Reverse(es) == Reverse(rest) + [e];
    assert p == ([e] + log)[..Min(Cap, |log| + 1)];
    if |rest| == 0 {
      assert Reverse(es) + log == [e] + log;
    } else {
      PushAllNewestFirst(p, rest);
      TakeOfAppendTake(Reverse(rest), [e] + log, Min(Cap, |log| + 1), Min(Cap, |rest| + |p|));
      assert Reverse(rest) + ([e] + log) == Reverse(es) + log;
    }
  }

  /** Once anything has been recorded, the log is within the cap, however
      long the stored log it started from. */
  lemma PushAllBounded(log: seq<Entry>, es: seq<Entry>)
    requires |es| > 0
    ensures 0 < |PushAll(log, es)| <= Cap
    ensures PushAll(log, es)[0] == es[|es| - 1]
  {
    PushAllNewestFirst(log, es);
  }

  // ---------------------------------------------------------------- labels

  /** The content a label shows: `Set → n`, `Reset → n`, or the signed
      delta and the new count. */
  datatype Shown = ShownSet(n: int) | ShownReset(n: int) | ShownDelta(d: int, n: int)

  function Describe(e: Entry): Shown {
    match e.kind
    case Set => ShownSet(e.newCount)
    case Reset => ShownReset(e.newCount)
    case _ => ShownDelta(e.delta, e.newCount)
  }

  /** The separator ` → ` of every label. */
  const Arrow: string := " \U{2192} "

  /** `h.delta > 0 ? `+${h.delta}` : `${h.delta}``. */
  function SignedDelta(d: int): string {
    if d > 0 then "+" + NatToDec(d) else IntToDec(d)
  }

  function Format(x: Shown): string {
    match x
    case ShownSet(n) => "Set" + Arrow + IntToDec(n)
    case ShownReset(n) => "Reset" + Arrow + IntToDec(n)
    case ShownDelta(d, n) => SignedDelta(d) + Arrow + IntToDec(n)
  }

  /** The label `renderHistory` writes for one entry. */
  function Label(e: Entry): (s: string)
    ensures e.kind == Set ==> s == "Set \U{2192} " + IntToDec(e.newCount)
    ensures e.kind == Reset ==> s == "Reset \U{2192} " + IntToDec(e.newCount)
    ensures e.kind != Set && e.kind != Reset && e.delta > 0 ==>
              s == "+" + NatToDec(e.delta) + " \U{2192} " + IntToDec(e.newCount)
    ensures e.kind != Set && e.kind != Reset && e.delta <= 0 ==>
              s == IntToDec(e.delta) + " \U{2192} " + IntToDec(e.newCount)
  {
    Format(Describe(e))
  }

  /** Reads a label back: what is left of ` → ` says which kind of label
      it is (or is the signed delta), what is right of it is the count. */
  function ParseLabel(s: string): Option<Shown> {
    match IndexOf(s, '\U{2192}')
    case None => None
    case Some(p) =>
      if p < 1 || p + 2 > |s| || s[p - 1] != ' ' || s[p + 1] != ' ' then None
      else
        var left, right := s[..p - 1], s[p + 2..];
        match ParseInt(right)
        case None => None
        case Some(n) =>
          if left == "Set" then Some(ShownSet(n))
          else if left == "Reset" then Some(ShownReset(n))
          else match ParseInt(left)
            case None => None
            case Some(d) => Some(ShownDelta(d, n))
  }

  /** In `left → right` with no arrow in `left`, the first arrow is the
      one joining the two. */
  lemma ArrowIndexOfJoin(left: string, right: string)
    requires '\U{2192}' !in left
    ensures IndexOf(left + Arrow + right, '\U{2192}') == Some(|left| + 1)
    decreases |left|
  {
    var s := left + Arrow + right;
    if |left| > 0 {
      assert s[1..] == left[1..] + Arrow + right;
      ArrowIndexOfJoin(left[1..], right);
    } else {
      assert s[0] == ' ' && s[1] == '\U{2192}';
      assert s[1..][0] == '\U{2192}';
    }
  }

  /** Where `left`, the spaces around the arrow and `right` sit in
      `left → right`. */
  lemma SplitJoin(left: string, right: string)
    ensures (left + Arrow + right)[..|left|] == left
    ensures (left + Arrow + right)[|left| + 3..] == right
    ensures (left + Arrow + right)[|left|] == ' ' && (left + Arrow + right)[|left| + 2] == ' '
  {
  }

  /** The text left of the arrow never contains an arrow. */
  lemma LeftHasNoArrow(x: Shown)
    ensures '\U{2192}' !in (match x
                            case ShownSet(_) => "Set"
                            case ShownReset(_) => "Reset"
                            case ShownDelta(d, _) => SignedDelta(d))
  {
    if x.ShownDelta? {
      var d := x.d;
      if d > 0 {
        IntToDecAlphabet(d, '\U{2192}');
        assert ("+" + NatToDec(d))[1..] == NatToDec(d);
      } else {
        IntToDecAlphabet(d, '\U{2192}');
      }
    }
  }

  /** Every label can be read back: the kind of label, the delta it shows
      and the new count are recovered from the text alone. */
  lemma {:induction false} ParseFormat(x: Shown)
    ensures ParseLabel(Format(x)) == Some(x)
  {
    var left := match x
                case ShownSet(_) => "Set"
                case ShownReset(_) => "Reset"
                case ShownDelta(d, _) => SignedDelta(d);
    var s := Format(x);
    assert s == left + Arrow + IntToDec(x.n);
    LeftHasNoArrow(x);
    ArrowIndexOfJoin(left, IntToDec(x.n));
    SplitJoin(left, IntToDec(x.n));
    if x.ShownDelta? {
      if x.d > 0 {
        ParsePlusSigned(x.d);
      }
      assert left != "Set" && left != "Reset" by {
        if x.d > 0 { assert left[0] == '+'; } else { assert IsDigit(left[0]) || left[0] == '-'; }
      }
    }
  }

  /** The label of an entry determines its displayed content. */
  lemma LabelReadsBack(e: Entry)
    ensures ParseLabel(Label(e)) == Some(Describe(e))
  {
    ParseFormat(Describe(e));
  }

  // ---------------------------------------------------------------- render

  /** `(h.type || '').toUpperCase()`. */
  function Tag(k: Kind): string {
    match k
    case Change => "CHANGE"
    case Add => "ADD"
    case Sub => "SUB"
    case Set => "SET"
    case Reset => "RESET"
  }

  /** One row of the history list. */
  datatype Row = Placeholder(text: string) | Item(caption: string, when: Time, tag: string)

  /** The rows `renderHistory` puts in the list: a placeholder for an
      empty log, else one item per entry of `history.slice(0, 200)`, in
      order. It reads the log and returns a new value, so the log itself
      is never changed. */
  function Render(log: seq<Entry>): (rows: seq<Row>)
    ensures |log| == 0 ==> rows == [Placeholder("No history yet.")]
    ensures |log| > 0 ==> |rows| == Min(RenderLimit, |log|)
    ensures forall i :: 0 <= i < |rows| && |log| > 0 ==>
              rows[i].Item? && rows[i].when == log[i].when && rows[i].tag == Tag(log[i].kind)
              && rows[i].caption == Label(log[i])
              && ParseLabel(rows[i].caption) == Some(Describe(log[i]))
  {
    if |log| == 0 then [Placeholder("No history yet.")]
    else
      var shown := log[..Min(RenderLimit, |log|)];
      var rows := seq(|shown|, i requires 0 <= i < |shown| => Item(Label(shown[i]), shown[i].when, Tag(shown[i].kind)));
      assert forall i :: 0 <= i < |rows| ==> ParseLabel(rows[i].caption) == Some(Describe(log[i])) by {
        forall i | 0 <= i < |rows|
          ensures ParseLabel(rows[i].caption) == Some(Describe(log[i]))
        {
          LabelReadsBack(log[i]);
        }
      }
      rows
  }
}

=== FILE: records.dfy ===
/** The entities of app.js: timestamps, history entries, themes, the
    editor fields of the settings panel, the inline style of the document
    root and the records kept in session storage. */
module Records {
  import opened Wrappers

  /** An ISO-8601 timestamp as produced by `new Date().toISOString()`; it
      is never the empty string, so it is always truthy. */
  type Time = s: string | |s| > 0 witness "1970-01-01T00:00:00.000Z"

  /** The text JavaScript prints for a number (`String(Number(x))`): an
      opacity is kept as this text. */
  type Alpha = string

  /** The `type` of a history entry. */
  datatype Kind = Change | Add | Sub | Set | Reset

  /** One history entry `{when, delta, type, newCount}`. */
  datatype Entry = Entry(when: Time, delta: int, kind: Kind, newCount: int)

  /** A theme object `{top, bottom, glass, glass2, accent}`; `None` is a
      property that is missing (or `null` after a JSON round trip). */
  datatype Theme = Theme(
    top: Option<string>,
    bottom: Option<string>,
    glass: Option<Alpha>,
    glass2: Option<Alpha>,
    accent: Option<string>)

  /** The values of the theme inputs `themeTop`, `themeBottom`,
      `glassOpacity` and `accentColor`. */
  datatype Fields = Fields(top: string, bottom: string, glass: Alpha, accent: string)

  /** What the theme code changes on the page: the custom properties set on
      the root element's inline style, and the editor fields. */
  datatype Style = Style(vars: map<string, string>, fields: Fields)

  /** A value kept in session storage, after `JSON.parse`. `Unparseable`
      is text that `JSON.parse` rejects (or that parses to something the
      reader cannot use). */
  datatype Record =
    | CounterRec(count: int, lastSaved: Time)
    | StartRec(at: Time)
    | ThemeRec(theme: Theme)
    | HistoryRec(entries: seq<Entry>)
    | Unparseable
}

=== FILE: storage.dfy ===
/** `sessionStorage` as used by app.js: a map from the four keys to
    records. `full` stands for a storage that refuses writes (quota
    exceeded): `setItem` then throws, which every caller either catches,
    turning the write into a no-op, or lets escape. `removeItem` never
    fails. */
module SessionStorage {
  import opened Wrappers
  import opened Records

  const CounterKey: string := "clickCounter_v1"
  const StartKey: string := "clickCounter_startedAt"
  const ThemeKey: string := "clickCounter_theme_v1"
  const HistoryKey: string := "clickCounter_history_v1"

  datatype Store = Store(items: map<string, Record>, full: bool)

  /** `getItem(k)`: `None` for a missing key. */
  function GetItem(st: Store, k: string): (r: Option<Record>)
    ensures r.Some? <==> k in st.items
    ensures r.Some? ==> r.value == st.items[k]
  {
    if k in st.items then Some(st.items[k]) else None
  }

  /** `setItem(k, v)` where the caller catches a failure: a full storage
      is left as it was. */
  function SetItem(st: Store, k: string, v: Record): (r: Store)
    ensures r.full == st.full
    ensures st.full ==> r == st
    ensures !st.full ==> k in r.items && r.items[k] == v
    ensures r.items - {k} == st.items - {k}
  {
    if st.full then st else st.(items := st.items[k := v])
  }

  /** `removeItem(k)`. */
  function RemoveItem(st: Store, k: string): (r: Store)
    ensures r.full == st.full
    ensures k !in r.items
    ensures r.items - {k} == st.items - {k}
  {
    st.(items := st.items - {k})
  }

  /** `k` holds `v`. */
  predicate Holds(st: Store, k: string, v: Record) {
    k in st.items && st.items[k] == v
  }

  /** Reading a key back after writing it gives what was written, unless
      the write was refused. */
  lemma GetAfterSet(st: Store, k: string, v: Record, k': string)
    ensures GetItem(SetItem(st, k, v), k') ==
              if k' == k && !st.full then Some(v) else GetItem(st, k')
  {
    if k' != k {
      assert k' in SetItem(st, k, v).items <==> k' in (SetItem(st, k, v).items - {k});
      assert k' in st.items <==> k' in (st.items - {k});
    }
  }

  /** Reading a removed key finds nothing; other keys are unaffected. */
  lemma GetAfterRemove(st: Store, k: string, k': string)
    ensures GetItem(RemoveItem(st, k), k') == if k' == k then None else GetItem(st, k')
  {
  }
}

=== FILE: text.dfy ===
/** Character classes and number <-> text conversions used by the colour
    helpers and the history labels: JavaScript's `String(n)`,
    `n.toString(16)`, `padStart(2, '0')`, `parseInt` on digit strings and
    the regular-expression class `\s`. */
module Text {
  import opened Wrappers

  // ---------------------------------------------------------------- decimal

  predicate IsDigit(c: char) { '0' <= c <= '9' }

  predicate AllDigits(s: string) {
    forall i :: 0 <= i < |s| ==> IsDigit(s[i])
  }

  function DigitValue(c: char): (d: nat)
    requires IsDigit(c)
    ensures d < 10
  {
    c as int - '0' as int
  }

  function DigitChar(d: nat): (c: char)
    requires d < 10
    ensures IsDigit(c) && DigitValue(c) == d
  {
    ('0' as int + d) as char
  }

  /** `String(n)` for a non-negative integer: digits, most significant
      first, no leading zero. */
  function NatToDec(n: nat): (s: string)
    ensures |s| > 0 && AllDigits(s)
    ensures |s| > 1 ==> s[0] != '0'
    decreases n
  {
    if n < 10 then [DigitChar(n)]
    else NatToDec(n / 10) + [DigitChar(n % 10)]
  }

  /** `parseInt(s)` on a string of decimal digits (leading zeros allowed). */
  function DecToNat(s: string): nat
    requires AllDigits(s)
    decreases |s|
  {
    if |s| == 0 then 0 else 10 * DecToNat(s[..|s| - 1]) + DigitValue(s[|s| - 1])
  }

  /** Reading back the decimal text of `n` gives `n`. */
  lemma {:induction false} DecToNatOfNatToDec(n: nat)
    ensures DecToNat(NatToDec(n)) == n
    decreases n
  {
    if n >= 10 {
      var s := NatToDec(n);
      assert s[..|s| - 1] == NatToDec(n / 10);
      DecToNatOfNatToDec(n / 10);
    }
  }

  /** `String(i)` for any integer: a `-` exactly for a negative number,
      then decimal digits, and the text reads back as `i`. */
  function IntToDec(i: int): (s: string)
    ensures |s| > 0
    ensures s[0] == '-' <==> i < 0
    ensures i >= 0 ==> AllDigits(s)
    ensures i < 0 ==> AllDigits(s[1..])
    ensures ParseInt(s) == Some(i)
  {
    if i < 0 then
      ParseNegative(-i);
      assert ("-" + NatToDec(-i))[1..] == NatToDec(-i);
      "-" + NatToDec(-i)
    else
      ParseNatural(i);
      NatToDec(i)
  }

  /** A signed decimal integer: optional `+` or `-`, then one or more
      digits. Anything else is `None`. */
  function ParseInt(s: string): Option<int> {
    if |s| > 1 && s[0] == '-' && AllDigits(s[1..]) then Some(0 - DecToNat(s[1..]))
    else if |s| > 1 && s[0] == '+' && AllDigits(s[1..]) then Some(DecToNat(s[1..]))
    else if |s| > 0 && AllDigits(s) then Some(DecToNat(s))
    else None
  }

  /** A positive number written with a `+` in front is read back too. */
  lemma ParsePlusSigned(n: nat)
    requires n > 0
    ensures ParseInt("+" + NatToDec(n)) == Some(n)
  {
    ParseNatural(n);
  }

  /** A negative number's text is read back. */
  lemma ParseNegative(n: nat)
    requires n > 0
    ensures ParseInt("-" + NatToDec(n)) == Some(0 - n)
  {
    var s := "-" + NatToDec(n);
    assert s[1..] == NatToDec(n);
    DecToNatOfNatToDec(n);
  }

  /** A natural number's text, plain or with `+`, is read back. */
  lemma ParseNatural(n: nat)
    ensures ParseInt(NatToDec(n)) == Some(n)
    ensures n > 0 ==> ParseInt("+" + NatToDec(n)) == Some(n)
  {
    DecToNatOfNatToDec(n);
    var p := "+" + NatToDec(n);
    assert p[1..] == NatToDec(n);
    assert p[0] == '+' && !IsDigit(p[0]);
  }

  /** No decimal text contains `c` unless `c` is a digit or the sign. */
  lemma IntToDecAlphabet(i: int, c: char)
    requires !IsDigit(c) && c != '-'
    ensures c !in IntToDec(i)
  {
    var s := IntToDec(i);
    if i < 0 {
      assert forall k :: 1 <= k < |s| ==> s[k] == s[1..][k - 1];
    }
  }

  // ---------------------------------------------------------------- search

  /** `s.indexOf(c)`: the index of the first `c` in `s`, if any. */
  function IndexOf(s: string, c: char): (p: Option<nat>)
    ensures p.Some? ==> p.value < |s| && s[p.value] == c && c !in s[..p.value]
    ensures p.None? ==> c !in s
    decreases |s|
  {
    if |s| == 0 then None
    else if s[0] == c then Some(0)
    else match IndexOf(s[1..], c)
      case None => None
      case Some(q) =>
        assert s[..q + 1] == [s[0]] + s[1..][..q];
        Some(q + 1)
  }

  // -------------------------------------------------------------------- hex

  predicate IsHexDigit(c: char) {
    IsDigit(c) || 'a' <= c <= 'f' || 'A' <= c <= 'F'
  }

  /** `parseInt(c, 16)` for one hex digit of either case. */
  function HexValue(c: char): (d: nat)
    requires IsHexDigit(c)
    ensures d < 16
  {
    if IsDigit(c) then DigitValue(c)
    else if 'a' <= c <= 'f' then c as int - 'a' as int + 10
    else c as int - 'A' as int + 10
  }

  /** The lower-case hex digit `toString(16)` writes for `d`. */
  function HexChar(d: nat): (c: char)
    requires d < 16
    ensures IsHexDigit(c)
    ensures ToLower(c) == c && (d > 0 ==> c != '0')
  {
    if d < 10 then DigitChar(d) else ('a' as int + d - 10) as char
  }

  /** ASCII lower-casing; every other character is left alone. */
  function ToLower(c: char): char {
    if 'A' <= c <= 'Z' then (c as int - 'A' as int + 'a' as int) as char else c
  }

  function LowerAll(s: string): (r: string)
    ensures |r| == |s|
    ensures forall i :: 0 <= i < |s| ==> r[i] == ToLower(s[i])
  {
    seq(|s|, i requires 0 <= i < |s| => ToLower(s[i]))
  }

  /** Writing back the value of a hex digit yields that digit lower-cased. */
  lemma HexCharOfHexValue(c: char)
    requires IsHexDigit(c)
    ensures HexChar(HexValue(c)) == ToLower(c)
  {
  }

  predicate AllHexDigits(s: string) {
    forall i :: 0 <= i < |s| ==> IsHexDigit(s[i])
  }

  /** `parseInt(s, 16)` on a string of hex digits. */
  function HexToNat(s: string): nat
    requires AllHexDigits(s)
    decreases |s|
  {
    if |s| == 0 then 0 else 16 * HexToNat(s[..|s| - 1]) + HexValue(s[|s| - 1])
  }

  /** Every hex digit `toString(16)` writes has the value it was written
      for. */
  lemma HexValueOfHexChar(d: nat)
    requires d < 16
    ensures HexValue(HexChar(d)) == d
  {
  }

  /** `n.toString(16)` for a non-negative integer: hex digits that denote
      `n`. */
  function NatToHex(n: nat): (s: string)
    ensures |s| > 0 && AllHexDigits(s)
    ensures HexToNat(s) == n
    ensures |s| > 1 ==> s[0] != '0'
    ensures forall i :: 0 <= i < |s| ==> ToLower(s[i]) == s[i]
    decreases n
  {
    HexValueOfHexChar(n % 16);
    if n < 16 then [HexChar(n)]
    else
      var h := NatToHex(n / 16);
      var s := h + [HexChar(n % 16)];
      assert s[..|s| - 1] == h;
      s
  }

  /** `s.padStart(2, '0')`. */
  function PadStart2(s: string): (r: string)
    ensures |r| == if |s| >= 2 then |s| else 2
    ensures |s| >= 2 ==> r == s
    ensures |s| < 2 ==> r[2 - |s|..] == s && forall i :: 0 <= i < 2 - |s| ==> r[i] == '0'
  {
    if |s| >= 2 then s else if |s| == 1 then "0" + s else "00"
  }

  /** `n.toString(16).padStart(2, '0')`. */
  function Hex2(n: nat): (r: string)
    ensures |r| >= 2
    ensures forall i :: 0 <= i < |r| ==> IsHexDigit(r[i])
  {
    var h := NatToHex(n);
    var r := PadStart2(h);
    assert forall i :: 0 <= i < |r| ==> IsHexDigit(r[i]) by {
      if |h| < 2 {
        assert forall i :: 2 - |h| <= i < |r| ==> r[i] == h[i - (2 - |h|)];
      }
    }
    r
  }

  /** A byte `16 * a + b` is written by `Hex2` as the two digits of `a`
      and `b`, high first. */
  lemma Hex2OfByte(a: nat, b: nat)
    requires a < 16 && b < 16
    ensures Hex2(16 * a + b) == [HexChar(a), HexChar(b)]
  {
    var n := 16 * a + b;
    if a == 0 {
      assert NatToHex(n) == [HexChar(b)];
    } else {
      assert n / 16 == a && n % 16 == b;
      assert NatToHex(n) == NatToHex(a) + [HexChar(b)];
    }
  }

  /** Two hex digits `x`, `y` read as a byte and written back by `Hex2`
      come back lower-cased. */
  lemma Hex2OfDigits(x: char, y: char)
    requires IsHexDigit(x) && IsHexDigit(y)
    ensures Hex2(16 * HexValue(x) + HexValue(y)) == [ToLower(x), ToLower(y)]
  {
    HexCharOfHexValue(x);
    HexCharOfHexValue(y);
    Hex2OfByte(HexValue(x), HexValue(y));
  }

  // ------------------------------------------------------------- whitespace

  /** The class `\s` of JavaScript regular expressions: the white-space and
      line-terminator characters of ECMAScript. */
  predicate IsSpace(c: char) {
    || c == '\t' || c == '\n' || c == '\U{000B}' || c == '\U{000C}' || c == '\r'
    || c == ' ' || c == '\U{00A0}' || c == '\U{1680}'
    || ('\U{2000}' <= c <= '\U{200A}')
    || c == '\U{2028}' || c == '\U{2029}' || c == '\U{202F}' || c == '\U{205F}'
    || c == '\U{3000}' || c == '\U{FEFF}'
  }

  predicate NoSpaces(s: string) {
    forall i :: 0 <= i < |s| ==> !IsSpace(s[i])
  }

  /** `s.replace(/\s/g, '')`: every white-space character removed, the rest
      kept in order. */
  function StripSpaces(s: string): (r: string)
    ensures NoSpaces(r)
    ensures |r| <= |s|
    ensures NoSpaces(s) ==> r == s
    ensures |s| == 1 ==> r == (if IsSpace(s[0]) then "" else s)
    decreases |s|
  {
    if |s| == 0 then s
    else if IsSpace(s[0]) then StripSpaces(s[1..])
    else [s[0]] + StripSpaces(s[1..])
  }

  /** Stripping distributes over concatenation. */
  lemma {:induction false} StripSpacesAppend(a: string, b: string)
    ensures StripSpaces(a + b) == StripSpaces(a) + StripSpaces(b)
    decreases |a|
  {
    if |a| > 0 {
      assert (a + b)[1..] == a[1..] + b;
      StripSpacesAppend(a[1..], b);
    } else {
      assert a + b == b;
    }
  }
}

=== FILE: theme.dfy ===
/** The theme code of app.js: `applyTheme`, `loadTheme`,
    `resetThemeToDefault` and the preview / save / reset buttons of the
    settings panel. A theme sets five custom properties on the root
    element; saving also keeps the theme, as JSON, under the theme key. */
module ThemeStore {
  import opened Wrappers
  import opened Text
  import opened Colour
  import opened Records
  import opened SessionStorage
  import opened Counter

  const TopVar: string := "--bg-top"
  const BottomVar: string := "--bg-bottom"
  const GlassVar: string := "--glass"
  const Glass2Var: string := "--glass-2"
  const AccentVar: string := "--accent-white"

  /** The only custom properties the theme code writes. */
  const ThemeVars: set<string> := {TopVar, BottomVar, GlassVar, Glass2Var, AccentVar}

  /** The theme `resetThemeToDefault` applies. */
  const DefaultTheme: Theme :=
    Theme(Some("#79bfe9"), Some("#f0b79a"), Some("0.45"), Some("0.06"), Some("#ffffff"))

  /** The editor values `resetThemeToDefault` puts back. */
  const DefaultFields: Fields := Fields("#79bfe9", "#f0b79a", "0.45", "#ffffff")

  /** A string property is truthy when present and not empty. */
  predicate Truthy(x: Option<string>) {
    x.Some? && |x.value| > 0
  }

  /** A number property is truthy when present and neither `0` nor `NaN`. */
  predicate AlphaTruthy(x: Option<Alpha>) {
    x.Some? && x.value != "0" && x.value != "NaN"
  }

  /** The value of custom property `k`, if set. */
  function Lookup(m: map<string, string>, k: string): (v: Option<string>)
    ensures v.Some? <==> k in m
  {
    if k in m then Some(m[k]) else None
  }

  /** `hexToRgba('#ffffff', a)`. */
  function White(a: Alpha): (r: string)
    ensures r == "rgba(255,255,255," + a + ")"
  {
    WhiteRgba(a);
    HexToRgba("#ffffff", a)
  }

  /** White is written with the channel values 255. */
  lemma WhiteRgba(a: Alpha)
    ensures HasSixHexDigits(RemoveFirstHash("#ffffff"))
    ensures HexToRgba("#ffffff", a) == "rgba(255,255,255," + a + ")"
  {
    WhiteBytes();
    Decimal255();
    assert HexToRgba("#ffffff", a) == RgbaText("255", "255", "255", a);
  }

  /** `#ffffff` loses its `#` and reads as three bytes 255. */
  lemma WhiteBytes()
    ensures RemoveFirstHash("#ffffff") == "ffffff" && HasSixHexDigits("ffffff")
    ensures ByteAt("ffffff", 0) == 255 && ByteAt("ffffff", 2) == 255 && ByteAt("ffffff", 4) == 255
  {
    assert HexValue('f') == 15;
  }

  /** `String(255)`. */
  lemma Decimal255()
    ensures NatToDec(255) == "255"
  {
    assert NatToDec(25) == "25" by {
      assert NatToDec(2) == "2";
    }
  }

  /** `k` is set to `v` when `cond` holds. */
  function SetIf(m: map<string, string>, cond: bool, k: string, v: string): (r: map<string, string>)
    ensures Lookup(r, k) == if cond then Some(v) else Lookup(m, k)
    ensures forall k' :: k' != k ==> Lookup(r, k') == Lookup(m, k')
  {
    if cond then m[k := v] else m
  }

  /** Setting a theme property leaves every other property alone. */
  lemma SetIfOutside(m: map<string, string>, cond: bool, k: string, v: string)
    requires k in ThemeVars
    ensures SetIf(m, cond, k, v) - ThemeVars == m - ThemeVars
  {
  }

  /** The five property names differ (they have different lengths). */
  lemma VarsDistinct()
    ensures |TopVar| == 8 && |BottomVar| == 11 && |GlassVar| == 7 && |Glass2Var| == 9 && |AccentVar| == 14
  {
  }

  /** The custom properties after the five guarded `setProperty` calls. */
  function ApplyVars(m: map<string, string>, t: Theme): (r: map<string, string>)
    ensures r - ThemeVars == m - ThemeVars
    ensures Lookup(r, TopVar) == if Truthy(t.top) then t.top else Lookup(m, TopVar)
    ensures Lookup(r, BottomVar) == if Truthy(t.bottom) then t.bottom else Lookup(m, BottomVar)
    ensures Lookup(r, GlassVar) == if AlphaTruthy(t.glass) then Some(White(t.glass.value)) else Lookup(m, GlassVar)
    ensures Lookup(r, Glass2Var) == if AlphaTruthy(t.glass2) then Some(White(t.glass2.value)) else Lookup(m, Glass2Var)
    ensures Lookup(r, AccentVar) == if Truthy(t.accent) then t.accent else Lookup(m, AccentVar)
  {
    VarsDistinct();
    var m1 := SetIf(m, Truthy(t.top), TopVar, t.top.GetOr(""));
    var m2 := SetIf(m1, Truthy(t.bottom), BottomVar, t.bottom.GetOr(""));
    var m3 := SetIf(m2, AlphaTruthy(t.glass), GlassVar, White(t.glass.GetOr("")));
    var m4 := SetIf(m3, AlphaTruthy(t.glass2), Glass2Var, White(t.glass2.GetOr("")));
    var m5 := SetIf(m4, Truthy(t.accent), AccentVar, t.accent.GetOr(""));
    SetIfOutside(m, Truthy(t.top), TopVar, t.top.GetOr(""));
    SetIfOutside(m1, Truthy(t.bottom), BottomVar, t.bottom.GetOr(""));
    SetIfOutside(m2, AlphaTruthy(t.glass), GlassVar, White(t.glass.GetOr("")));
    SetIfOutside(m3, AlphaTruthy(t.glass2), Glass2Var, White(t.glass2.GetOr("")));
    SetIfOutside(m4, Truthy(t.accent), AccentVar, t.accent.GetOr(""));
    m5
  }

  /** A number `JSON.stringify` cannot write; it is stored as `null`. */
  predicate NonFinite(a: Alpha) {
    a == "NaN" || a == "Infinity" || a == "-Infinity"
  }

  /** A theme after `JSON.stringify` and `JSON.parse`: strings survive,
      non-finite numbers come back as `null`. */
  function Serialised(t: Theme): (r: Theme)
    ensures r.top == t.top && r.bottom == t.bottom && r.accent == t.accent
    ensures r.glass.None? <==> t.glass.None? || NonFinite(t.glass.value)
    ensures r.glass.Some? ==> r.glass == t.glass
    ensures r.glass2.None? <==> t.glass2.None? || NonFinite(t.glass2.value)
    ensures r.glass2.Some? ==> r.glass2 == t.glass2
  {
    t.(glass := if t.glass.Some? && NonFinite(t.glass.value) then None else t.glass,
       glass2 := if t.glass2.Some? && NonFinite(t.glass2.value) then None else t.glass2)
  }

  /** Storing a theme and reading it back is stable. */
  lemma SerialisedStable(t: Theme)
    ensures Serialised(Serialised(t)) == Serialised(t)
  {
  }

  /** Neither glass value is an infinity (true of any number the opacity
      slider can give). */
  predicate FiniteGlass(t: Theme) {
    (t.glass.None? || (t.glass.value != "Infinity" && t.glass.value != "-Infinity"))
    && (t.glass2.None? || (t.glass2.value != "Infinity" && t.glass2.value != "-Infinity"))
  }

  /** A theme with finite glass values applies exactly as its stored
      form: the `NaN` that storage turns into `null` was skipped anyway. */
  lemma ApplySerialised(m: map<string, string>, t: Theme)
    requires FiniteGlass(t)
    ensures ApplyVars(m, Serialised(t)) == ApplyVars(m, t)
  {
  }

  /** `applyTheme(theme, persist)`: sets the custom properties for the
      truthy fields of the theme and, when `persist`, stores the theme;
      a failing write is caught and ignored. */
  function ApplyTheme(s: State, t: Theme, persist: bool): (r: State)
    ensures r.count == s.count && r.startedAt == s.startedAt && r.lastSaved == s.lastSaved
    ensures r.history == s.history && r.style.fields == s.style.fields
    ensures r.style.vars == ApplyVars(s.style.vars, t)
    ensures r.store.full == s.store.full
    ensures persist && !s.store.full ==> Holds(r.store, ThemeKey, ThemeRec(Serialised(t)))
    ensures !persist || s.store.full ==> r.store == s.store
    ensures r.store.items - {ThemeKey} == s.store.items - {ThemeKey}
  {
    var styled := s.(style := s.style.(vars := ApplyVars(s.style.vars, t)));
    if persist then styled.(store := SetItem(s.store, ThemeKey, ThemeRec(Serialised(t)))) else styled
  }

  /** The editor fields `loadTheme` fills from a stored theme: strings when
      truthy, the opacity whenever it is a number, even 0. */
  function LoadFields(f: Fields, t: Theme): (r: Fields)
    ensures r.top == (if Truthy(t.top) then t.top.value else f.top)
    ensures r.bottom == (if Truthy(t.bottom) then t.bottom.value else f.bottom)
    ensures r.glass == t.glass.GetOr(f.glass)
    ensures r.accent == (if Truthy(t.accent) then t.accent.value else f.accent)
  {
    Fields(if Truthy(t.top) then t.top.value else f.top,
           if Truthy(t.bottom) then t.bottom.value else f.bottom,
           t.glass.GetOr(f.glass),
           if Truthy(t.accent) then t.accent.value else f.accent)
  }

  /** `loadTheme`: a stored theme is applied (not stored again) and copied
      into the editor; a missing key, or text `JSON.parse` rejects,
      leaves the page alone. A stored value that is not a theme object
      has none of the theme properties and changes nothing either. */
  function LoadTheme(s: State): (r: State)
    ensures r.count == s.count && r.startedAt == s.startedAt && r.lastSaved == s.lastSaved
    ensures r.history == s.history && r.store == s.store
    ensures GetItem(s.store, ThemeKey).Some? && GetItem(s.store, ThemeKey).value.ThemeRec? ==>
              var t := GetItem(s.store, ThemeKey).value.theme;
              r.style == Style(ApplyVars(s.style.vars, t), LoadFields(s.style.fields, t))
    ensures !(GetItem(s.store, ThemeKey).Some? && GetItem(s.store, ThemeKey).value.ThemeRec?) ==> r == s
  {
    match GetItem(s.store, ThemeKey)
    case Some(ThemeRec(t)) =>
      var applied := ApplyTheme(s, t, false);
      applied.(style := applied.style.(fields := LoadFields(s.style.fields, t)))
    case _ => s
  }

  /** `resetThemeToDefault`: the stored theme is removed, the default
      theme applied and the editor set to the default values. */
  function ResetThemeToDefault(s: State): (r: State)
    ensures r.count == s.count && r.startedAt == s.startedAt && r.lastSaved == s.lastSaved
    ensures r.history == s.history && r.store.full == s.store.full
    ensures ThemeKey !in r.store.items
    ensures r.store.items - {ThemeKey} == s.store.items - {ThemeKey}
    ensures r.style.fields == DefaultFields
    ensures r.style.vars - ThemeVars == s.style.vars - ThemeVars
    ensures Lookup(r.style.vars, TopVar) == Some("#79bfe9")
    ensures Lookup(r.style.vars, BottomVar) == Some("#f0b79a")
    ensures Lookup(r.style.vars, GlassVar) == Some("rgba(255,255,255,0.45)")
    ensures Lookup(r.style.vars, Glass2Var) == Some("rgba(255,255,255,0.06)")
    ensures Lookup(r.style.vars, AccentVar) == Some("#ffffff")
  {
    var removed := s.(store := RemoveItem(s.store, ThemeKey));
    assert White("0.45") == "rgba(255,255,255,0.45)" && White("0.06") == "rgba(255,255,255,0.06)";
    assert AlphaTruthy(Some("0.45")) && AlphaTruthy(Some("0.06")) by {
      assert |"0.45"| == 4 && |"0.06"| == 4;
    }
    var applied := ApplyTheme(removed, DefaultTheme, false);
    applied.(style := applied.style.(fields := DefaultFields))
  }

  /** The theme the panel's inputs describe. `glass2` is
      `Math.max(0.01, glass - 0.35)`, computed in floating point by the
      caller. */
  function FromFields(f: Fields, glass2: Alpha): (t: Theme)
    ensures t.top == Some(f.top) && t.bottom == Some(f.bottom) && t.accent == Some(f.accent)
    ensures t.glass == Some(f.glass) && t.glass2 == Some(glass2)
  {
    Theme(Some(f.top), Some(f.bottom), Some(f.glass), Some(glass2), Some(f.accent))
  }

  /** The preview button: apply the panel's theme without storing it. */
  function PreviewTheme(s: State, glass2: Alpha): (r: State)
    ensures r.store == s.store && r.style.fields == s.style.fields
    ensures r.style.vars == ApplyVars(s.style.vars, FromFields(s.style.fields, glass2))
  {
    ApplyTheme(s, FromFields(s.style.fields, glass2), false)
  }

  /** The save button: apply the panel's theme and store it. */
  function SaveTheme(s: State, glass2: Alpha): (r: State)
    ensures r.style == PreviewTheme(s, glass2).style
    ensures !s.store.full ==> Holds(r.store, ThemeKey, ThemeRec(Serialised(FromFields(s.style.fields, glass2))))
  {
    ApplyTheme(s, FromFields(s.style.fields, glass2), true)
  }

  /** The reset-theme button. Declined, nothing happens; confirmed, the
      stored theme is gone, the page and the editor show the default theme,
      and the counter is untouched. */
  function ResetTheme(s: State, confirmed: bool): (r: State)
    ensures !confirmed ==> r == s
    ensures r.count == s.count && r.startedAt == s.startedAt && r.lastSaved == s.lastSaved
    ensures r.history == s.history && r.store.full == s.store.full
    ensures r.store.items - {ThemeKey} == s.store.items - {ThemeKey}
    ensures confirmed ==> ThemeKey !in r.store.items && r.style.fields == DefaultFields
    ensures confirmed ==> Lookup(r.style.vars, TopVar) == Some("#79bfe9")
                          && Lookup(r.style.vars, BottomVar) == Some("#f0b79a")
                          && Lookup(r.style.vars, GlassVar) == Some("rgba(255,255,255,0.45)")
                          && Lookup(r.style.vars, Glass2Var) == Some("rgba(255,255,255,0.06)")
                          && Lookup(r.style.vars, AccentVar) == Some("#ffffff")
  {
    if confirmed then ResetThemeToDefault(s) else s
  }

  // ------------------------------------------------------------- properties

  /** Applying a theme twice is the same as applying it once. */
  lemma ApplyIdempotent(s: State, t: Theme, persist: bool)
    ensures ApplyTheme(ApplyTheme(s, t, persist), t, persist) == ApplyTheme(s, t, persist)
  {
    var once := ApplyTheme(s, t, persist);
    var twice := ApplyTheme(once, t, persist);
    MapsAgree(twice.style.vars, once.style.vars);
    assert twice.store.items == once.store.items;
  }

  /** Two maps of custom properties that agree outside the theme
      properties and on each of them are equal. */
  lemma MapsAgree(a: map<string, string>, b: map<string, string>)
    requires a - ThemeVars == b - ThemeVars
    requires Lookup(a, TopVar) == Lookup(b, TopVar) && Lookup(a, BottomVar) == Lookup(b, BottomVar)
    requires Lookup(a, GlassVar) == Lookup(b, GlassVar) && Lookup(a, Glass2Var) == Lookup(b, Glass2Var)
    requires Lookup(a, AccentVar) == Lookup(b, AccentVar)
    ensures a == b
  {
    forall k | k in a
      ensures k in b && a[k] == b[k]
    {
      if k !in ThemeVars {
        assert k in a - ThemeVars;
        assert (a - ThemeVars)[k] == a[k] && (b - ThemeVars)[k] == b[k];
      } else {
        assert Lookup(a, k) == Lookup(b, k);
      }
    }
    forall k | k in b
      ensures k in a
    {
      if k !in ThemeVars {
        assert k in b - ThemeVars;
      } else {
        assert Lookup(a, k) == Lookup(b, k);
      }
    }
  }

  /** The panel's values are all truthy: non-empty colours and opacities
      that are neither `0` nor `NaN`, so every guarded `setProperty` and
      every editor copy of `loadTheme` fires. */
  predicate AllSet(f: Fields, glass2: Alpha) {
    var t := FromFields(f, glass2);
    Truthy(t.top) && Truthy(t.bottom) && Truthy(t.accent) && AlphaTruthy(t.glass) && AlphaTruthy(t.glass2)
  }

  /** A saved theme comes back on the next load, in any page whose storage
      is the storage the save left (a reload starts from the initial
      style, not the edited one). When the panel's values were all set,
      the editor gets back exactly the saved values, each theme property
      gets the value the save gave it, and every other property is the
      reloading page's own. A page still in the saving page's style ends
      up exactly as the save left it, whatever the values. */
  lemma SavedThemeReloads(s: State, glass2: Alpha, u: State)
    requires !s.store.full
    requires FiniteGlass(FromFields(s.style.fields, glass2))
    requires u.store == SaveTheme(s, glass2).store
    ensures AllSet(s.style.fields, glass2) ==>
              LoadTheme(u).style.fields == SaveTheme(s, glass2).style.fields
    ensures AllSet(s.style.fields, glass2) ==>
              forall k :: k in ThemeVars ==>
                Lookup(LoadTheme(u).style.vars, k) == Lookup(SaveTheme(s, glass2).style.vars, k)
    ensures LoadTheme(u).style.vars - ThemeVars == u.style.vars - ThemeVars
    ensures u.style == s.style ==> LoadTheme(u).style == SaveTheme(s, glass2).style
  {
    var t := FromFields(s.style.fields, glass2);
    ApplySerialised(u.style.vars, t);
    assert LoadFields(s.style.fields, Serialised(t)) == s.style.fields;
    if AllSet(s.style.fields, glass2) {
      assert LoadFields(u.style.fields, Serialised(t)) == s.style.fields;
    }
  }

  /** After a reset a load finds no stored theme and changes nothing. */
  lemma LoadAfterReset(s: State)
    ensures LoadTheme(ResetThemeToDefault(s)) == ResetThemeToDefault(s)
  {
  }

  /** Resetting twice is the same as resetting once. */
  lemma ResetIdempotent(s: State)
    ensures ResetThemeToDefault(ResetThemeToDefault(s)) == ResetThemeToDefault(s)
  {
    var once := ResetThemeToDefault(s);
    var twice := ResetThemeToDefault(once);
    MapsAgree(twice.style.vars, once.style.vars);
    assert twice.store.items == once.store.items;
  }

  /** Loading the stored theme twice is the same as loading it once. */
  lemma LoadIdempotent(s: State)
    ensures LoadTheme(LoadTheme(s)) == LoadTheme(s)
  {
    match GetItem(s.store, ThemeKey)
    case Some(ThemeRec(t)) =>
      var once := LoadTheme(s);
      var twice := LoadTheme(once);
      MapsAgree(twice.style.vars, once.style.vars);
    case _ =>
  }

  /** Applying a theme never touches the counter: what storage says about
      the count, the start time and the log stays as it was. */
  lemma ApplyKeepsCounter(s: State, t: Theme, persist: bool)
    requires Persisted(s)
    ensures Persisted(ApplyTheme(s, t, persist))
  {
    OnlyThemeKey(s, ApplyTheme(s, t, persist));
  }

  /** Loading the theme never touches the counter. */
  lemma LoadKeepsCounter(s: State)
    requires Persisted(s)
    ensures Persisted(LoadTheme(s))
  {
  }

  /** Resetting the theme never touches the counter. */
  lemma ResetKeepsCounter(s: State)
    requires Persisted(s)
    ensures Persisted(ResetThemeToDefault(s))
  {
    OnlyThemeKey(s, ResetThemeToDefault(s));
  }

  /** A state that differs from a persisted one only in its style and the
      theme key is persisted too. */
  lemma OnlyThemeKey(s: State, r: State)
    requires Persisted(s)
    requires r.count == s.count && r.startedAt == s.startedAt && r.lastSaved == s.lastSaved
    requires r.history == s.history && r.store.full == s.store.full
    requires r.store.items - {ThemeKey} == s.store.items - {ThemeKey}
    ensures Persisted(r)
  {
    KeysDistinct();
    KeepsOtherKeys(s.store, r.store, {ThemeKey}, StartKey);
    KeepsOtherKeys(s.store, r.store, {ThemeKey}, CounterKey);
    KeepsOtherKeys(s.store, r.store, {ThemeKey}, HistoryKey);
  }
}

=== FILE: wrappers.dfy ===
/** The optional value used wherever the program returns `null`, reads an
    absent storage key or skips a falsy field. */
module Wrappers {

  datatype Option<+T> = None | Some(value: T) {

    /** The value, or `default` when absent (JavaScript's `x || default`
        once falsiness has been mapped to `None`). */
    function GetOr(default: T): T {
      match this
      case Some(v) => v
      case None => default
    }
  }
}
